=== FILE: README.md ===
# Media renamer — a Dafny model

The media renamer walks a folder tree and gives every image, video and audio file a name of the form
`YYYY-MM-DD_HHMMSS.ext`. The date comes from the file name when the name has a valid date in it.
Otherwise it comes from the modification time, if that year lies between 2000 and the current year.
The time part always comes from the modification time. If the name is taken, the renamer tries
`-1`, `-2`, … in the same folder. A dry run only reports what it would do. At the end a log lists
the renamed files, the files already named correctly, and the skipped or failed files.

This project models that core (`organize_media_files` and its two helpers in `main.py`) with
immutable data and pure functions, and proves what the code guarantees.

- `Numerals` holds ASCII decimal digits. It covers `int()` of a digit group and rendering a number
  unpadded (`%Y`) or padded to two digits (`%m`, `%d`, `%H`, …).
- `Calendar` holds what `datetime.date` accepts (Gregorian leap years, years 1 to 9999) and the
  `strftime` renderings the renamer uses, with their inverses.
- `FilenameDate` models `re.search` for `(20\d{2})[\-_]?(\d{2})[\-_]?(\d{2})`. It finds the leftmost
  start; at that start, the backtracking order of the two optional separators decides the match.
  It also models the conversion of the groups into a date.
  Whether a date is written `2023-04-05`, `2023_04_05` or `20230405` does not matter when no
  earlier position of the name can start a match. With digits in front it can matter: a shorter
  form may let an earlier start match.
- `DateResolution` holds the metadata fallback and the `or` that prefers the filename.
- `Naming` holds paths, `Path.suffix`, ASCII lowercasing, the extension sets and the collision
  search.
- `LogText` holds the log document: `Header` writes the title lines around the generation time
  already rendered by `Calendar.StampText` (line 124), `Section` writes a counted heading, a
  rule and the entries (lines 125-133), and `Sections` puts the three sections in order.
- `Organizer` holds the scan filter, the per-file step, the loop and the whole invocation. The log
  entries are written by `RenamedLine` (line 110), `CorrectLine` (line 98), `UndatedLine` (line 89)
  and `ErrorLine` (line 117). The
  folder tree is a set of paths. A real rename removes the source and adds the destination, so later
  files see the change.
- `Stability` covers what a second run does with the first run's output.

Outside effects become parameters:

- whether the target is a folder;
- the list `rglob` returns, with each file's modification time already converted to local time;
- the current year and the current time;
- for each source path, the message its rename raises, if it raises.

A modification time that cannot be read or converted is `None`. When the filename supplied the date,
the `or` at line 87 never consults the metadata, and the only read of the time is at line 94,
outside any `try`, so the whole run stops there. The model reports this
as `Crashed`.

One might expect a second run to rename nothing. The code does not do that for a file
that was numbered `-1` because its canonical name was taken. The next run sees the canonical name
still taken and its own `-1` name taken by itself, so in a real run whose rename succeeds it moves the file to `-2`, or to the next free number after it. The model follows
the code: `Stability.NumberedNameIsRenumbered` proves the move, and `Stability.CanonicalNameIsStable`
proves that an un-numbered canonical name does stay put.

## Model

| member | source | states |
|---|---|---|
| Numerals.Decimal | main.py:31 | the rendering of a number is a non-empty digit string with no leading zero |
| Numerals.DecimalRoundTrip | main.py:29-31 | reading the rendering of any natural number with `int()` gives the number back |
| Numerals.DecimalInjective | main.py:106 | different numbers render differently, so the numbered suffixes `-k` are all distinct |
| Numerals.DecimalOfValue | main.py:29-31 | a digit string without a leading zero, read as a number and rendered again, is the same string |
| Numerals.Pad2OfValue | main.py:29-31 | a two-digit group has value ten times its first digit plus its second, and `%m`/`%d` renders that value as the same two characters |
| Numerals.ValueOfPad2 | main.py:31 | a two-digit padded rendering reads back as the number |
| Calendar.DaysInMonth | main.py:30 | months have 28 to 31 days; January, March, May, July, August, October and December have 31; April, June, September and November have 30; February has 29 exactly in leap years |
| Calendar.LeapDay | main.py:30 | `datetime.date(y, 2, 29)` is accepted exactly when y is a Gregorian leap year |
| Calendar.YearLength | main.py:30 | the month lengths add up to 366 days in a leap year and 365 otherwise |
| Calendar.DateText | main.py:31 | a date from year 1000 on renders as ten characters with dashes at positions 4 and 7 |
| Calendar.DateTextRoundTrip | main.py:31 | reading a rendered `%Y-%m-%d` text back gives the same date |
| Calendar.TimeSuffix | main.py:94 | the time part of a new name is an underscore followed by six digits |
| Calendar.TimeSuffixRoundTrip | main.py:94 | the six digits of the time part read back as the hour, minute and second of the modification time |
| Calendar.StampText | main.py:124 | the log header's time stamp is nineteen characters long for four-digit years |
| Calendar.StampTextRoundTrip | main.py:124 | the time stamp reads back as the date in `%Y-%m-%d`, a space, and the hour, minute and second separated by colons |
| FilenameDate.YearGroup | main.py:25 | the year group is four digits starting with "20" |
| FilenameDate.MatchedDate | main.py:29 | the groups converted with `int()` give a year from 2000 to 2099 and a month and day of at most 99 |
| FilenameDate.SeparatorChoiceForced | main.py:25 | at one start position at most one choice of optional separators matches, so backtracking order never picks among several |
| FilenameDate.MatchAt | main.py:25 | a match found at a position is a real match, no alternative earlier in backtracking order matches there, and "no match" means no alternative matches there |
| FilenameDate.SearchFrom | main.py:25 | the search returns a match at the first matching position at or after the start, with the first separator choice in backtracking order; it returns nothing only if no position there matches |
| FilenameDate.Search | main.py:25-27 | the search result is the leftmost match, and no result means the pattern occurs nowhere in the name |
| FilenameDate.LeftmostMatchUnique | main.py:25 | a name has at most one leftmost match |
| FilenameDate.SearchFindsLeftmost | main.py:25 | whenever a leftmost match exists, the search returns exactly it |
| FilenameDate.DateFromFilenameSpec | main.py:24-33 | no match gives no date; otherwise there is a date iff the leftmost match's groups form a valid calendar date; the result is year, month and day groups joined by dashes, ten characters long, and parses back to a valid date in 2000 to 2099 |
| FilenameDate.GroupsRenderBack | main.py:29-31 | the groups of a valid match render back unchanged through `int()` and `strftime` |
| FilenameDate.DateFromFilenameIsRendered | main.py:28-31 | any date taken from a name is the rendering of a valid date in 2000 to 2099 |
| FilenameDate.NoDigitsNoDate | main.py:25-27 | a name without digits yields no date |
| FilenameDate.SeparatorStyleIrrelevant | main.py:25-33 | after a digit-free prefix, `2023-04-05`, `2023_04_05`, `20230405` and mixed forms give the same result: the date when it is valid, otherwise none |
| FilenameDate.DigitPrefixMakesStyleMatter | main.py:25-33 | with digits before the date the style can matter: `2022023-04-05` yields `2023-04-05`, while `20220230405` yields no date because the match at the start reads 2022-02-30 |
| FilenameDate.RenderedDateParsesBack | main.py:24-33 | a name that starts with a rendered date from 2000 to 2099 yields exactly that date |
| FilenameDate.LeftmostInvalidMatchIsNotRetried | main.py:25-33 | when the leftmost match is an invalid date, there is no date, even if a later position matches a valid one |
| FilenameDate.LeftmostInvalidMatchExample | main.py:25-33 | `2020230405` yields no date: the leftmost match reads month 23, and the later real date `20230405` is not tried |
| FilenameDate.CameraNameExample | main.py:24-33 | `IMG_20230405_141230.jpg` yields `2023-04-05` |
| DateResolution.MetadataDate | main.py:35-43 | the metadata gives a date iff the modification time can be read and its year lies from 2000 to the current year; that date is the modification date |
| DateResolution.ResolveDateSpec | main.py:87 | a date from the name wins; with none, the metadata date is used; there is no date only if both sources fail; every date is a valid rendered date from 2000 on |
| Naming.LastDot | main.py:96 | the position found is a dot, and no dot follows it |
| Naming.Suffix | main.py:96 | the suffix is empty, or it is a final part of the name that starts with its last dot, has at least one more character and is not the whole name; it is empty exactly when no such dot exists |
| Naming.SuffixOfAppended | main.py:96 | appending an extension-shaped suffix to a non-empty base gives back that suffix |
| Naming.Lower | main.py:63 | lowercasing keeps the length, leaves no capital letter, keeps every other character, and turns each capital into the small letter at the same place in the alphabet |
| Naming.MediaFilterIgnoresCase | main.py:63 | a name with a suffix is a media name exactly when its lowered suffix is a media extension, so `x.JPG` and `x.jpg` are judged alike |
| Naming.UpperCaseExtensionExample | main.py:63 | `IMG_0001.JPG` passes the media filter |
| Naming.MediaNameHasSuffix | main.py:19-22 | a name that passes the media filter has a well-formed suffix |
| Naming.Candidate | main.py:95-106 | every attempt starts with the new base name and ends with the suffix |
| Naming.CandidateInjective | main.py:104-108 | different attempt numbers give different names |
| Naming.FirstFreeUnique | main.py:105-108 | the first free attempt is unique |
| Naming.FreeName | main.py:102-108 | the chosen destination is the first attempt, in order, whose path does not exist in the folder |
| LogText.Section | main.py:125-133 | a section is empty iff it has no entries |
| LogText.SectionShowsCount | main.py:125-133 | a section is present exactly when it has entries, and then the number in its heading reads back as the number of entries |
| LogText.HeadingCount | main.py:126 | the number in a section heading reads back as the number of entries |
| Organizer.LogHeadingsShowCounters | main.py:123-133 | in the log of a run, each section appears exactly when the report's counter for it is positive, and the number in its heading reads back as that counter |
| LogText.RenderLogShape | main.py:123-133 | for a rendered time stamp, the log starts with the header holding it, is only the header iff all three logs are empty, and ends with the skipped entries |
| Organizer.MediaFiles | main.py:63 | a scanned file is kept iff its lowercased suffix is a media extension |
| Organizer.MediaFilesOfAppend | main.py:63 | the filter keeps the scan order |
| Organizer.MediaFilesDistinct | main.py:63 | filtering distinct scanned files keeps them distinct and present |
| Organizer.PlanFor | main.py:87-96 | a file has no plan iff no date resolves; a file whose time cannot be read but whose name has a date makes the run stop; otherwise the new name keeps the file's suffix |
| Organizer.TargetShape | main.py:94-96 | a new base name is a valid `YYYY-MM-DD` date, an underscore, and the six time digits of the modification time |
| Organizer.SummaryCounts | main.py:69-121 | every processed file lands in exactly one log, each counter equals its log's length, the counts add up to the number processed, and errors never exceed skips |
| Organizer.ProcessFile | main.py:87-121 | one file follows the step rule (skip, already correct, or first free destination with rename or failure), the tree changes only by a real successful rename, and the logs and counters grow by that outcome's entry |
| Organizer.RenameFile | main.py:102-121 | the rename goes to the first free name; it fails exactly in a real run whose rename raises, and then the entry moves from the renamed log to the skipped log with the error message |
| Organizer.Organize | main.py:84-121 | the loop processes the files in order and stops only at a file whose time cannot be read; every outcome follows the step rule; a dry run leaves the tree unchanged; the tree keeps its size; the report summarises the outcomes |
| Organizer.DryRunKeepsTree | main.py:113 | a dry run renames nothing |
| Organizer.StepAt | main.py:84-121 | each outcome of a run follows the step rule for its file in the tree its predecessors left |
| Organizer.RunKeepsTreeSize | main.py:105-115 | files still to come stay in the tree, and the tree keeps its size |
| Organizer.DestinationPersists | main.py:105-115 | in a real run, a rename's destination stays in the tree for the rest of the run |
| Organizer.RealRenamesHaveDistinctDestinations | main.py:102-115 | in a real run no two renames go to the same path |
| Organizer.DryRunPreviewsSameDestination | main.py:102-113 | in a dry run, two files of one folder with the same new name are both shown the same destination |
| Organizer.OrganizeMediaFiles | main.py:45-133 | a missing target folder or an empty scan ends early; a crash happens at a media file whose time cannot be read, after a valid run over the files before it; a finished run is a valid run over all media files whose report summarises its outcomes, with counts adding up to the number found and each counter equal to its log's length; the tree keeps its size and stays unchanged in a dry run; the log is the rendering of the three logs |
| Stability.CanonicalNameIsStable | main.py:87-98 | while the current year is at most 2099, a media file under its own canonical name with the same modification time is reported as already correct |
| Stability.NumberedNameIsRenumbered | main.py:98-108 | a file named `-1` whose canonical name is still taken is renamed to a number of at least 2 |

## Left out

- Console output, the progress bar, the start panel and the summary table (lines 46-61, 73-85 and 135-145) are presentation only. The counts they show are in the model's report.
- The filesystem is left out. `is_dir`, `rglob`, `is_file`, `stat`, `rename` and writing `log.txt` become inputs: the scanned list, a set of paths, and a map from source path to rename error message. The log file's location, its encoding, and a failure to open it are not modelled.
- Clocks and time zones are left out. `date.today()`, `datetime.now()` and the conversion of a timestamp to local time are inputs: a current year, a current date-time, and a converted modification time or `None`.
- The model reads the modification time once per file. The code reads it twice only when the name has no date: once for the date fallback (line 37) and once for the time part (line 94). The model assumes both reads agree.
- Python's `\d` also matches non-ASCII decimal digits, and `str.lower` is Unicode-aware. The model uses ASCII digits and ASCII case folding.
- `%Y` is modelled as an unpadded number, which is glibc's behaviour. It only matters for years below 1000, which no date here can have.
- Paths: a directory is an absolute path, as the configured target folder is. A file directly under a relative root such as `.` is not printed the way Python prints it (`x.jpg`).
- `Organizer.Organize` requires the scanned paths to be distinct and present in the tree, which `rglob` guarantees.
- A file that is not a regular file is not in the scanned list.
- Calendar.DateText: states the shape only for years from 1000 on. Smaller years never reach a name because every resolved year is at least 2000.
- Stability.CanonicalNameIsStable: requires a current year of at most 2099. The model does not show that a canonical name with a later metadata year parses back, because the filename pattern only knows years 20xx.
- LogText.RenderLogShape: its contract states the header, the empty case and the final skipped entries. It does not state where the renamed and already-correct sections begin or their order. Each section's presence and heading count are stated separately by `LogText.SectionShowsCount` and `Organizer.LogHeadingsShowCounters`.

=== FILE: calendar.dfy ===
/**
 The proleptic Gregorian calendar as Python's `datetime.date` checks it, and
 the `strftime` renderings the renamer uses: `%Y-%m-%d` for a date,
 `_%H%M%S` for the time part of a new name, `%Y-%m-%d %H:%M:%S` for the log
 header.
 */
module Calendar {
  import opened Wrappers
  import opened Numerals

  datatype Date = Date(year: int, month: int, day: int)

  /** A local date-time as `datetime.fromtimestamp` yields it. */
  datatype DateTime = DateTime(date: Date, hour: int, minute: int, second: int)

  predicate IsLeapYear(y: int) {
    y % 4 == 0 && (y % 100 != 0 || y % 400 == 0)
  }

  function DaysInMonth(y: int, m: int): (n: int)
    requires 1 <= m <= 12
    ensures 28 <= n <= 31
    ensures n == 31 <==> m in {1, 3, 5, 7, 8, 10, 12}
    ensures n == 30 <==> m in {4, 6, 9, 11}
    ensures m == 2 ==> (n == 29 <==> IsLeapYear(y))
  {
    if m == 2 then (if IsLeapYear(y) then 29 else 28)
    else if m in {4, 6, 9, 11} then 30
    else 31
  }

  /** What `datetime.date(year, month, day)` accepts without raising `ValueError`. */
  predicate IsValidDate(d: Date) {
    1 <= d.year <= 9999 && 1 <= d.month <= 12 && 1 <= d.day <= DaysInMonth(d.year, d.month)
  }

  predicate IsValidDateTime(t: DateTime) {
    IsValidDate(t.date) && 0 <= t.hour < 24 && 0 <= t.minute < 60 && 0 <= t.second < 60
  }

  /** `date.strftime('%Y-%m-%d')`. */
  function DateText(d: Date): (r: string)
    requires IsValidDate(d)
    ensures 1000 <= d.year ==> |r| == 10 && r[4] == '-' && r[7] == '-'
  {
    DecimalOfFourDigits(d.year);
    Decimal(d.year) + "-" + Pad2(d.month) + "-" + Pad2(d.day)
  }

  /** `strftime('_%H%M%S')`. */
  function TimeSuffix(t: DateTime): (r: string)
    requires IsValidDateTime(t)
    ensures |r| == 7 && r[0] == '_' && AllDigits(r[1..])
  {
    "_" + Pad2(t.hour) + Pad2(t.minute) + Pad2(t.second)
  }

  /** The six digits of a time suffix read back as the hour, minute and second. */
  lemma TimeSuffixRoundTrip(t: DateTime)
    requires IsValidDateTime(t)
    ensures var r := TimeSuffix(t);
      ValueOf(r[1..3]) == t.hour && ValueOf(r[3..5]) == t.minute && ValueOf(r[5..7]) == t.second
  {
    var r := TimeSuffix(t);
    var h, m, s := Pad2(t.hour), Pad2(t.minute), Pad2(t.second);
    assert r == "_" + h + m + s;
    assert r[1..3] == h by { assert r[1] == h[0] && r[2] == h[1]; }
    assert r[3..5] == m by { assert r[3] == m[0] && r[4] == m[1]; }
    assert r[5..7] == s by { assert r[5] == s[0] && r[6] == s[1]; }
    ValueOfPad2(t.hour);
    ValueOfPad2(t.minute);
    ValueOfPad2(t.second);
  }

  /** `f"{t:%Y-%m-%d %H:%M:%S}"`. */
  function StampText(t: DateTime): (r: string)
    requires IsValidDateTime(t)
    ensures 1000 <= t.date.year ==> |r| == 19
  {
    DateText(t.date) + " " + Pad2(t.hour) + ":" + Pad2(t.minute) + ":" + Pad2(t.second)
  }

  /**
   A log time stamp reads back as the date it was made from, a space, and
   the hour, minute and second separated by colons.
   */
  lemma StampTextRoundTrip(t: DateTime)
    requires IsValidDateTime(t) && 1000 <= t.date.year
    ensures var r := StampText(t);
      && ParseDateText(r[..10]) == Some(t.date)
      && r[10] == ' ' && r[13] == ':' && r[16] == ':'
      && ValueOf(r[11..13]) == t.hour && ValueOf(r[14..16]) == t.minute && ValueOf(r[17..19]) == t.second
  {
    var r := StampText(t);
    var d, h, m, s := DateText(t.date), Pad2(t.hour), Pad2(t.minute), Pad2(t.second);
    assert r == d + " " + h + ":" + m + ":" + s;
    assert r[..10] == d;
    assert r[11..13] == h by { assert r[11] == h[0] && r[12] == h[1]; }
    assert r[14..16] == m by { assert r[14] == m[0] && r[15] == m[1]; }
    assert r[17..19] == s by { assert r[17] == s[0] && r[18] == s[1]; }
    DateTextRoundTrip(t.date);
    ValueOfPad2(t.hour);
    ValueOfPad2(t.minute);
    ValueOfPad2(t.second);
  }

  /** Reads a `YYYY-MM-DD` text back into its fields; the inverse of `DateText`. */
  function ParseDateText(t: string): (r: Option<Date>)
    ensures r.Some? ==> |t| == 10
  {
    if |t| == 10 && t[4] == '-' && t[7] == '-'
       && AllDigits(t[..4]) && AllDigits(t[5..7]) && AllDigits(t[8..])
    then Some(Date(ValueOf(t[..4]), ValueOf(t[5..7]), ValueOf(t[8..])))
    else None
  }

  /** A four-digit-year date survives rendering and reading back. */
  lemma DateTextRoundTrip(d: Date)
    requires IsValidDate(d) && 1000 <= d.year
    ensures ParseDateText(DateText(d)) == Some(d)
  {
    var t := DateText(d);
    DecimalOfFourDigits(d.year);
    assert t[..4] == Decimal(d.year);
    assert t[5..7] == Pad2(d.month);
    assert t[8..] == Pad2(d.day);
    DecimalRoundTrip(d.year);
    ValueOfPad2(d.month);
    ValueOfPad2(d.day);
  }

  function DaysBeforeMonth(y: int, m: int): int
    requires 1 <= m <= 13
    decreases m
  {
    if m == 1 then 0 else DaysBeforeMonth(y, m - 1) + DaysInMonth(y, m - 1)
  }

  /** The twelve month lengths add up to the length of the year. */
  lemma YearLength(y: int)
    ensures DaysBeforeMonth(y, 13) == if IsLeapYear(y) then 366 else 365
  {
  }

  /** February 29th exists exactly in leap years. */
  lemma LeapDay(y: int)
    requires 1 <= y <= 9999
    ensures IsValidDate(Date(y, 2, 29)) <==> IsLeapYear(y)
  {
  }
}

=== FILE: date_resolution.dfy ===
/**
 Which date a file gets: the file-name date wins; otherwise the
 modification date, but only when its year is plausible (from 2000 up to
 the current year). The modification time arrives already converted to a
 local date-time; None stands for a `stat` or conversion that raised.
 */
module DateResolution {
  import opened Wrappers
  import opened Calendar
  import opened FilenameDate

  const FirstPlausibleYear: int := 2000

  /** The plausibility test of `get_plausible_date_from_metadata`. */
  function MetadataDate(mtime: Option<DateTime>, currentYear: int): (r: Option<string>)
    requires mtime.Some? ==> IsValidDateTime(mtime.value)
    ensures r.Some? <==> mtime.Some? && FirstPlausibleYear <= mtime.value.date.year <= currentYear
    ensures r.Some? ==> ParseDateText(r.value) == Some(mtime.value.date)
  {
    match mtime
    case None => None
    case Some(t) =>
      if FirstPlausibleYear <= t.date.year <= currentYear then
        DateTextRoundTrip(t.date);
        Some(DateText(t.date))
      else None
  }

  /** `get_date_from_filename(name) or get_plausible_date_from_metadata(path)`. */
  function ResolveDate(name: string, mtime: Option<DateTime>, currentYear: int): Option<string>
    requires mtime.Some? ==> IsValidDateTime(mtime.value)
  {
    var fromName := DateFromFilename(name);
    if fromName.Some? then fromName else MetadataDate(mtime, currentYear)
  }

  /**
   The file-name date takes precedence; without one, the modification date
   is used exactly when its year is plausible, and otherwise the file has
   no date. Any date found is a rendered real date from 2000 on, up to 2099
   or the current year.
   */
  lemma ResolveDateSpec(name: string, mtime: Option<DateTime>, currentYear: int)
    requires mtime.Some? ==> IsValidDateTime(mtime.value)
    ensures var r := ResolveDate(name, mtime, currentYear);
      && (DateFromFilename(name).Some? ==> r == DateFromFilename(name))
      && (r.None? <==>
           DateFromFilename(name).None? && !(mtime.Some? && FirstPlausibleYear <= mtime.value.date.year <= currentYear))
      && (DateFromFilename(name).None? && r.Some? ==> ParseDateText(r.value) == Some(mtime.value.date))
      && (r.Some? ==> exists d :: IsValidDate(d) && r.value == DateText(d)
                                  && FirstPlausibleYear <= d.year && (d.year <= 2099 || d.year <= currentYear))
  {
    var r := ResolveDate(name, mtime, currentYear);
    DateFromFilenameIsRendered(name);
    if DateFromFilename(name).None? && r.Some? {
      assert r.value == DateText(mtime.value.date);
    }
  }
}

=== FILE: filename_date.dfy ===
/**
 The date found in a file name: `re.search` of the fixed pattern
 `(20\d{2})[\-_]?(\d{2})[\-_]?(\d{2})`, then `datetime.date(...)` on the
 three groups, rendered as `YYYY-MM-DD`.

 The regular-expression semantics is stated directly for this one pattern:
 a match is a start position plus the choice made for each optional
 separator; `re.search` returns the leftmost start, and at that start the
 first choice in backtracking order (a greedy `?` tries "present" before
 "absent").
 */
module FilenameDate {
  import opened Wrappers
  import opened Numerals
  import opened Calendar

  predicate IsSep(c: char) {
    c == '-' || c == '_'
  }

  /** Which of the two optional separators a match consumes. */
  datatype Choice = Choice(sep1: bool, sep2: bool)

  datatype RegexMatch = RegexMatch(start: nat, choice: Choice)

  function Bit(b: bool): nat {
    if b then 1 else 0
  }

  /** Backtracking order of the alternatives: greedy `?` tries the separator first. */
  function Rank(c: Choice): nat {
    2 * (1 - Bit(c.sep1)) + (1 - Bit(c.sep2))
  }

  function MonthStart(i: int, c: Choice): int {
    i + 4 + Bit(c.sep1)
  }

  function DayStart(i: int, c: Choice): int {
    MonthStart(i, c) + 2 + Bit(c.sep2)
  }

  /** The pattern matches at position i with separator choice c. */
  predicate MatchesAt(s: string, i: int, c: Choice) {
    && 0 <= i && DayStart(i, c) + 2 <= |s|
    && s[i] == '2' && s[i + 1] == '0' && IsDigit(s[i + 2]) && IsDigit(s[i + 3])
    && (c.sep1 ==> IsSep(s[i + 4]))
    && IsDigit(s[MonthStart(i, c)]) && IsDigit(s[MonthStart(i, c) + 1])
    && (c.sep2 ==> IsSep(s[MonthStart(i, c) + 2]))
    && IsDigit(s[DayStart(i, c)]) && IsDigit(s[DayStart(i, c) + 1])
  }

  ghost predicate AnyMatchAt(s: string, i: int) {
    exists c :: MatchesAt(s, i, c)
  }

  /** The match `re.search` reports: leftmost start, then first alternative. */
  ghost predicate IsLeftmostMatch(s: string, m: RegexMatch) {
    && MatchesAt(s, m.start, m.choice)
    && (forall j :: 0 <= j < m.start ==> !AnyMatchAt(s, j))
    && (forall c :: Rank(c) < Rank(m.choice) ==> !MatchesAt(s, m.start, c))
  }

  function YearGroup(s: string, m: RegexMatch): (g: string)
    requires MatchesAt(s, m.start, m.choice)
    ensures |g| == 4 && AllDigits(g) && g[0] == '2' && g[1] == '0'
  {
    s[m.start..m.start + 4]
  }

  function MonthGroup(s: string, m: RegexMatch): (g: string)
    requires MatchesAt(s, m.start, m.choice)
    ensures |g| == 2 && AllDigits(g)
  {
    s[MonthStart(m.start, m.choice)..MonthStart(m.start, m.choice) + 2]
  }

  function DayGroup(s: string, m: RegexMatch): (g: string)
    requires MatchesAt(s, m.start, m.choice)
    ensures |g| == 2 && AllDigits(g)
  {
    s[DayStart(m.start, m.choice)..DayStart(m.start, m.choice) + 2]
  }

  /** The three groups converted with `int(...)`. */
  function MatchedDate(s: string, m: RegexMatch): (d: Date)
    requires MatchesAt(s, m.start, m.choice)
    ensures 2000 <= d.year <= 2099 && 0 <= d.month <= 99 && 0 <= d.day <= 99
  {
    YearValue(YearGroup(s, m));
    Pad2OfValue(MonthGroup(s, m));
    Pad2OfValue(DayGroup(s, m));
    Date(ValueOf(YearGroup(s, m)), ValueOf(MonthGroup(s, m)), ValueOf(DayGroup(s, m)))
  }

  lemma YearValue(g: string)
    requires |g| == 4 && AllDigits(g) && g[0] == '2' && g[1] == '0'
    ensures 2000 <= ValueOf(g) <= 2099
  {
    ValueOfSingle(g[..1]);
    assert g[..2][..1] == g[..1];
    assert ValueOf(g[..2]) == 20;
    assert g[..3][..2] == g[..2];
    assert ValueOf(g[..3]) == 200 + DigitValue(g[2]);
    assert g[..4][..3] == g[..3] && g[..4] == g;
  }

  /**
   A separator character is never a digit, so at any position at most one
   alternative matches: backtracking never changes the groups.
   */
  lemma SeparatorChoiceForced(s: string, i: int, c1: Choice, c2: Choice)
    requires MatchesAt(s, i, c1) && MatchesAt(s, i, c2)
    ensures c1 == c2
  {
  }

  /** The alternatives at one position, tried in backtracking order. */
  function MatchAt(s: string, i: nat): (r: Option<Choice>)
    ensures r.Some? ==> MatchesAt(s, i, r.value)
    ensures r.Some? ==> forall c :: Rank(c) < Rank(r.value) ==> !MatchesAt(s, i, c)
    ensures r.None? ==> !AnyMatchAt(s, i)
  {
    if MatchesAt(s, i, Choice(true, true)) then Some(Choice(true, true))
    else if MatchesAt(s, i, Choice(true, false)) then Some(Choice(true, false))
    else if MatchesAt(s, i, Choice(false, true)) then Some(Choice(false, true))
    else if MatchesAt(s, i, Choice(false, false)) then Some(Choice(false, false))
    else None
  }

  /** `re.search` restricted to start positions from `from` onwards. */
  function SearchFrom(s: string, from: nat): (r: Option<RegexMatch>)
    decreases |s| - from
    ensures r.Some? ==> from <= r.value.start && MatchesAt(s, r.value.start, r.value.choice)
    ensures r.Some? ==> forall j :: from <= j < r.value.start ==> !AnyMatchAt(s, j)
    ensures r.Some? ==> forall c :: Rank(c) < Rank(r.value.choice) ==> !MatchesAt(s, r.value.start, c)
    ensures r.None? ==> forall j :: from <= j ==> !AnyMatchAt(s, j)
  {
    if |s| < from + 8 then None
    else match MatchAt(s, from)
      case Some(c) => Some(RegexMatch(from, c))
      case None => SearchFrom(s, from + 1)
  }

  /** `re.search` of the date pattern: the leftmost match, if any. */
  function Search(s: string): (r: Option<RegexMatch>)
    ensures r.Some? ==> IsLeftmostMatch(s, r.value)
    ensures r.None? ==> forall j :: !AnyMatchAt(s, j)
  {
    SearchFrom(s, 0)
  }

  /** A string has at most one leftmost match. */
  lemma LeftmostMatchUnique(s: string, m1: RegexMatch, m2: RegexMatch)
    requires IsLeftmostMatch(s, m1) && IsLeftmostMatch(s, m2)
    ensures m1 == m2
  {
    if m1.start < m2.start {
      assert AnyMatchAt(s, m1.start);
      assert false;
    } else if m2.start < m1.start {
      assert AnyMatchAt(s, m2.start);
      assert false;
    }
    SeparatorChoiceForced(s, m1.start, m1.choice, m2.choice);
  }

  /** `Search` returns the leftmost match whenever there is one. */
  lemma SearchFindsLeftmost(s: string, m: RegexMatch)
    requires IsLeftmostMatch(s, m)
    ensures Search(s) == Some(m)
  {
    assert AnyMatchAt(s, m.start);
    LeftmostMatchUnique(s, m, Search(s).value);
  }

  /**
   `get_date_from_filename`: the leftmost match decides; when its groups do
   not form a real date the result is None, and later substrings are not
   tried. `DateFromFilenameSpec` states what it computes.
   */
  function DateFromFilename(name: string): Option<string> {
    match Search(name)
    case None => None
    case Some(m) =>
      var d := MatchedDate(name, m);
      if IsValidDate(d) then Some(DateText(d)) else None
  }

  /**
   The contract of `get_date_from_filename`: no match gives None; otherwise
   the result exists exactly when the leftmost match is a real date, and it
   is that match's digits joined by dashes, a 10-character `YYYY-MM-DD` text
   that reads back as a real date in 2000..2099.
   */
  lemma DateFromFilenameSpec(name: string)
    ensures (forall j :: !AnyMatchAt(name, j)) ==> DateFromFilename(name).None?
    ensures forall m :: IsLeftmostMatch(name, m) ==>
      (DateFromFilename(name).Some? <==> IsValidDate(MatchedDate(name, m)))
    ensures forall m :: IsLeftmostMatch(name, m) && DateFromFilename(name).Some? ==>
      DateFromFilename(name).value == YearGroup(name, m) + "-" + MonthGroup(name, m) + "-" + DayGroup(name, m)
    ensures DateFromFilename(name).Some? ==> |DateFromFilename(name).value| == 10
    ensures DateFromFilename(name).Some? ==>
      exists d :: ParseDateText(DateFromFilename(name).value) == Some(d) && IsValidDate(d) && 2000 <= d.year <= 2099
  {
    forall m | IsLeftmostMatch(name, m) ensures Search(name) == Some(m) {
      SearchFindsLeftmost(name, m);
    }
    match Search(name)
    case None =>
    case Some(m) =>
      assert AnyMatchAt(name, m.start);
      var d := MatchedDate(name, m);
      if IsValidDate(d) {
        GroupsRenderBack(name, m);
        DateTextRoundTrip(d);
      }
  }

  /** Rendering the matched date reproduces the matched digits. */
  lemma GroupsRenderBack(s: string, m: RegexMatch)
    requires MatchesAt(s, m.start, m.choice)
    requires IsValidDate(MatchedDate(s, m))
    ensures DateText(MatchedDate(s, m)) == YearGroup(s, m) + "-" + MonthGroup(s, m) + "-" + DayGroup(s, m)
  {
    DecimalOfValue(YearGroup(s, m));
    Pad2OfValue(MonthGroup(s, m));
    Pad2OfValue(DayGroup(s, m));
  }

  predicate NoDigits(p: string) {
    forall i :: 0 <= i < |p| ==> !IsDigit(p[i])
  }

  /** A file-name date is the rendering of a real date of this century. */
  lemma DateFromFilenameIsRendered(name: string)
    ensures DateFromFilename(name).Some? ==>
      exists d :: IsValidDate(d) && 2000 <= d.year <= 2099 && DateFromFilename(name).value == DateText(d)
  {
    match Search(name)
    case None =>
    case Some(m) =>
      var d := MatchedDate(name, m);
      if IsValidDate(d) {
        assert DateFromFilename(name).value == DateText(d);
      }
  }

  /** A name without digits holds no date. */
  lemma NoDigitsNoDate(name: string)
    requires NoDigits(name)
    ensures DateFromFilename(name) == None
  {
    forall j ensures !AnyMatchAt(name, j) {
      if 0 <= j < |name| {
        assert !IsDigit(name[j]);
      }
    }
    DateFromFilenameSpec(name);
  }

  predicate IsOptionalSep(x: string) {
    x == "" || x == "-" || x == "_"
  }

  /**
   The pattern matches a window of s that holds a year, an optional
   separator, a month, an optional separator and a day; the groups are
   those pieces.
   */
  lemma WindowMatches(s: string, k: nat, y: string, s1: string, mo: string, s2: string, d: string)
    requires |y| == 4 && AllDigits(y) && y[0] == '2' && y[1] == '0'
    requires |mo| == 2 && AllDigits(mo) && |d| == 2 && AllDigits(d)
    requires IsOptionalSep(s1) && IsOptionalSep(s2)
    requires k + |y + s1 + mo + s2 + d| <= |s|
    requires s[k..k + |y + s1 + mo + s2 + d|] == y + s1 + mo + s2 + d
    ensures MatchesAt(s, k, Choice(s1 != "", s2 != ""))
    ensures YearGroup(s, RegexMatch(k, Choice(s1 != "", s2 != ""))) == y
    ensures MonthGroup(s, RegexMatch(k, Choice(s1 != "", s2 != ""))) == mo
    ensures DayGroup(s, RegexMatch(k, Choice(s1 != "", s2 != ""))) == d
  {
    var w := y + s1 + mo + s2 + d;
    var c := Choice(s1 != "", s2 != "");
    var ms, ds := k + 4 + |s1|, k + 6 + |s1| + |s2|;
    assert MonthStart(k, c) == ms && DayStart(k, c) == ds;
    forall i | 0 <= i < |w| ensures s[k + i] == w[i] {
      assert s[k..k + |w|][i] == w[i];
    }
    assert s[k..k + 4] == y by {
      forall i | 0 <= i < 4 ensures s[k + i] == y[i] { assert w[i] == y[i]; }
    }
    assert |s1| == 1 ==> s[k + 4] == s1[0] by {
      if |s1| == 1 { assert w[4] == s1[0]; }
    }
    assert s[ms..ms + 2] == mo by {
      forall i | 0 <= i < 2 ensures s[ms + i] == mo[i] { assert w[4 + |s1| + i] == mo[i]; }
    }
    assert |s2| == 1 ==> s[ms + 2] == s2[0] by {
      if |s2| == 1 { assert w[6 + |s1|] == s2[0]; }
    }
    assert s[ds..ds + 2] == d by {
      forall i | 0 <= i < 2 ensures s[ds + i] == d[i] { assert w[6 + |s1| + |s2| + i] == d[i]; }
    }
    assert s[k + 2] == y[2] && s[k + 3] == y[3];
    assert s[ms] == mo[0] && s[ms + 1] == mo[1];
    assert s[ds] == d[0] && s[ds + 1] == d[1];
    assert IsDigit(y[2]) && IsDigit(y[3]) && IsDigit(mo[0]) && IsDigit(mo[1]) && IsDigit(d[0]) && IsDigit(d[1]);
    assert IsDigit(s[ds]) && IsDigit(s[ds + 1]);
    assert IsDigit(s[ms]) && IsDigit(s[ms + 1]);
  }

  /**
   After a digit-free prefix, a date written with any separator style
   (`-`, `_` or none, chosen independently) yields that date, whatever
   follows it; an impossible date yields None even when a real date
   follows.
   */
  lemma SeparatorStyleIrrelevant(p: string, y: string, s1: string, mo: string, s2: string, d: string, q: string)
    requires NoDigits(p)
    requires |y| == 4 && AllDigits(y) && y[0] == '2' && y[1] == '0'
    requires |mo| == 2 && AllDigits(mo) && |d| == 2 && AllDigits(d)
    requires IsOptionalSep(s1) && IsOptionalSep(s2)
    ensures DateFromFilename(p + (y + s1 + mo + s2 + d) + q)
         == if IsValidDate(Date(ValueOf(y), ValueOf(mo), ValueOf(d))) then Some(y + "-" + mo + "-" + d) else None
  {
    var w := y + s1 + mo + s2 + d;
    var s := p + w + q;
    var m := RegexMatch(|p|, Choice(s1 != "", s2 != ""));
    assert s[|p|..|p| + |w|] == w;
    WindowMatches(s, |p|, y, s1, mo, s2, d);
    forall j | 0 <= j < |p| ensures !AnyMatchAt(s, j) {
      assert s[j] == p[j];
    }
    forall c | Rank(c) < Rank(m.choice) ensures !MatchesAt(s, m.start, c) {
      if MatchesAt(s, m.start, c) {
        SeparatorChoiceForced(s, m.start, c, m.choice);
      }
    }
    assert IsLeftmostMatch(s, m);
    DateFromFilenameSpec(s);
  }

  /**
   The digit-free prefix above is needed: with digits in front, an earlier
   start can match and the separator style changes the result. In
   "2022023-04-05" no match starts before the year 2023, while in
   "20220230405" the match at the start reads 2022-02-30 and there is no date.
   */
  lemma DigitPrefixMakesStyleMatter()
    ensures DateFromFilename("2022023-04-05") == Some("2023-04-05")
    ensures DateFromFilename("20220230405") == None
  {
    LaterStartAfterDigits();
    LeadingInvalidDate();
  }

  lemma LeadingInvalidDate()
    ensures DateFromFilename("20220230405") == None
  {
    assert AllDigits("2022") && AllDigits("02") && AllDigits("30");
    Pad2OfValue("02");
    Pad2OfValue("30");
    assert !IsValidDate(Date(ValueOf("2022"), 2, 30)) by {
      assert DaysInMonth(ValueOf("2022"), 2) <= 29;
    }
    SeparatorStyleIrrelevant([], "2022", "", "02", "", "30", "405");
    assert [] + ("2022" + "" + "02" + "" + "30") + "405" == "20220230405";
  }

  lemma LaterStartAfterDigits()
    ensures DateFromFilename("2022023-04-05") == Some("2023-04-05")
  {
    var s := "2022023-04-05";
    var m := RegexMatch(3, Choice(true, true));
    LaterStartIsLeftmost();
    SearchFindsLeftmost(s, m);
    LaterStartGroups();
    GroupsRenderBack(s, m);
    DashedLiteral();
  }

  lemma DashedLiteral()
    ensures "2023" + "-" + "04" + "-" + "05" == "2023-04-05"
  {
  }

  lemma LaterStartGroups()
    ensures MatchesAt("2022023-04-05", 3, Choice(true, true))
    ensures var m := RegexMatch(3, Choice(true, true));
      && YearGroup("2022023-04-05", m) == "2023" && MonthGroup("2022023-04-05", m) == "04"
      && DayGroup("2022023-04-05", m) == "05" && MatchedDate("2022023-04-05", m).month == 4
      && MatchedDate("2022023-04-05", m).day == 5
  {
    var s := "2022023-04-05";
    assert AllDigits("2023") && AllDigits("04") && AllDigits("05");
    assert s[3..13] == "2023" + "-" + "04" + "-" + "05";
    WindowMatches(s, 3, "2023", "-", "04", "-", "05");
    Pad2OfValue("04");
    Pad2OfValue("05");
  }

  lemma LaterStartIsLeftmost()
    ensures IsLeftmostMatch("2022023-04-05", RegexMatch(3, Choice(true, true)))
  {
    var s := "2022023-04-05";
    LaterStartGroups();
    forall j | 0 <= j < 3 ensures !AnyMatchAt(s, j) {
      if j == 0 {
        assert !IsSep(s[4]) && !IsSep(s[6]) && !IsDigit(s[7]);
      }
    }
  }

  /**
   A name that starts with a rendered 21st-century date is read back as that
   date: the renamer's own output is recognised on a later run.
   */
  lemma RenderedDateParsesBack(dt: Date, rest: string)
    requires IsValidDate(dt) && 2000 <= dt.year <= 2099
    ensures DateFromFilename(DateText(dt) + rest) == Some(DateText(dt))
  {
    var t := DateText(dt);
    var y, mo, d := Decimal(dt.year), Pad2(dt.month), Pad2(dt.day);
    CenturyNumeral(dt.year);
    DecimalRoundTrip(dt.year);
    ValueOfPad2(dt.month);
    ValueOfPad2(dt.day);
    SeparatorStyleIrrelevant([], y, "-", mo, "-", d, rest);
    assert [] + (y + "-" + mo + "-" + d) + rest == t + rest;
  }

  lemma CenturyNumeral(n: nat)
    requires 2000 <= n <= 2099
    ensures |Decimal(n)| == 4 && Decimal(n)[0] == '2' && Decimal(n)[1] == '0'
  {
    assert Decimal(n / 100) == Decimal(2) + [DigitChar(0)];
    assert Decimal(n / 10) == Decimal(n / 100) + [DigitChar(n / 10 % 10)];
    assert Decimal(n) == Decimal(n / 10) + [DigitChar(n % 10)];
  }

  /**
   The leftmost match governs: when it is not a real date the result is
   None, even if a later position matches a real date.
   */
  lemma LeftmostInvalidMatchIsNotRetried(s: string, m: RegexMatch, later: RegexMatch)
    requires IsLeftmostMatch(s, m) && !IsValidDate(MatchedDate(s, m))
    requires m.start < later.start && MatchesAt(s, later.start, later.choice)
    requires IsValidDate(MatchedDate(s, later))
    ensures DateFromFilename(s) == None
  {
    DateFromFilenameSpec(s);
  }

  /**
   An instance: in "2020230405" the leftmost match reads month 23 and the
   result is None, although the later substring "20230405" is a real date.
   */
  lemma LeftmostInvalidMatchExample()
    ensures DateFromFilename("2020230405") == None
  {
    var s := "2020230405";
    assert AllDigits("2020") && AllDigits("23") && AllDigits("04");
    Pad2OfValue("23");
    SeparatorStyleIrrelevant([], "2020", "", "23", "", "04", "05");
    assert [] + ("2020" + "" + "23" + "" + "04") + "05" == s;
  }

  /** A camera-style name yields its embedded date. */
  lemma CameraNameExample(name: string)
    requires name == "IMG_20230405_141230.jpg"
    ensures DateFromFilename(name) == Some("2023-04-05")
  {
    var p, y, mo, d, q := "IMG_", "2023", "04", "05", "_141230.jpg";
    assert p + (y + "" + mo + "" + d) + q == name;
    assert y + "-" + mo + "-" + d == "2023-04-05";
    CameraNamePieces(p, y, mo, d, q);
  }

  lemma CameraNamePieces(p: string, y: string, mo: string, d: string, q: string)
    requires p == "IMG_" && y == "2023" && mo == "04" && d == "05"
    ensures DateFromFilename(p + (y + "" + mo + "" + d) + q) == Some(y + "-" + mo + "-" + d)
  {
    assert NoDigits(p);
    assert AllDigits(y) && AllDigits(mo) && AllDigits(d);
    Pad2OfValue(mo);
    Pad2OfValue(d);
    YearValue(y);
    assert IsValidDate(Date(ValueOf(y), ValueOf(mo), ValueOf(d)));
    SeparatorStyleIrrelevant(p, y, "", mo, "", d, q);
  }
}

=== FILE: log_text.dfy ===
/**
 The log document written after the scan: a header with the generation
 time, then the renamed, already-correct and skipped sections in that
 order, each with its entry count; a section with no entries is left out.
 */
module LogText {
  import opened Numerals

  /** The line of fifty `=` under each section heading. */
  const Rule: string := "=================================================="

  const Title: string := "# MEDIA ORGANIZATION LOG\n# Generated on: "

  /** The two header lines and a blank line, around a time stamp rendered by `StampText`. */
  function Header(stamp: string): string {
    Title + stamp + "\n\n"
  }

  /** `writelines`: the entries back to back (each already ends in a newline). */
  function Concat(lines: seq<string>): string
  {
    if |lines| == 0 then "" else Concat(lines[..|lines| - 1]) + lines[|lines| - 1]
  }

  function Heading(lead: string, title: string, count: nat): string {
    lead + title + " (" + Decimal(count) + ")\n" + Rule + "\n"
  }

  /** One section: omitted entirely when it has no entries. */
  function Section(lead: string, title: string, entries: seq<string>): (r: string)
    ensures r == "" <==> |entries| == 0
  {
    if |entries| == 0 then "" else Heading(lead, title, |entries|) + Concat(entries)
  }

  /** The number written in a section's heading, at its place after the title, reads back as n. */
  predicate HeadingShows(section: string, lead: string, title: string, n: nat) {
    var at, w := |lead + title + " ("|, |Decimal(n)|;
    at + w <= |section| && AllDigits(section[at..at + w]) && ValueOf(section[at..at + w]) == n
  }

  /** The count in a heading reads back as the number of entries. */
  lemma HeadingCount(lead: string, title: string, entries: seq<string>)
    requires |entries| > 0
    ensures var h := Section(lead, title, entries);
            var at := |lead + title + " ("|;
            at + |Decimal(|entries|)| <= |h| && AllDigits(h[at..at + |Decimal(|entries|)|])
            && ValueOf(h[at..at + |Decimal(|entries|)|]) == |entries|
  {
    var h := Section(lead, title, entries);
    var at := |lead + title + " ("|;
    var n := Decimal(|entries|);
    assert h == lead + title + " (" + n + ")\n" + Rule + "\n" + Concat(entries);
    assert h[at..at + |n|] == n;
    DecimalRoundTrip(|entries|);
  }

  /** A section with n entries is present exactly when n is positive, and then its heading shows n. */
  lemma SectionShowsCount(lead: string, title: string, entries: seq<string>, n: nat)
    requires n == |entries|
    ensures Section(lead, title, entries) == "" <==> n == 0
    ensures n > 0 ==> HeadingShows(Section(lead, title, entries), lead, title, n)
  {
    if n > 0 {
      HeadingCount(lead, title, entries);
    }
  }

  function RenamedSection(entries: seq<string>): string {
    Section("", "# RENAMED FILES", entries)
  }

  function CorrectSection(entries: seq<string>): string {
    Section("\n", "# FILES ALREADY NAMED CORRECTLY", entries)
  }

  function SkippedSection(entries: seq<string>): string {
    Section("\n", "# SKIPPED OR ERRORED FILES", entries)
  }

  /** The whole log document, for the generation time already rendered as `stamp`. */
  function RenderLog(stamp: string, renamed: seq<string>, correct: seq<string>, skipped: seq<string>): string {
    Header(stamp) + Sections(renamed, correct, skipped)
  }

  /** The three sections in order: renamed, already correct, skipped. */
  function Sections(renamed: seq<string>, correct: seq<string>, skipped: seq<string>): string {
    RenamedSection(renamed) + CorrectSection(correct) + SkippedSection(skipped)
  }

  /**
   The log starts with the header, is nothing but the header exactly when
   all three logs are empty, and ends with the skipped entries.
   */
  lemma RenderLogShape(stamp: string, renamed: seq<string>, correct: seq<string>, skipped: seq<string>)
    ensures var r, h := RenderLog(stamp, renamed, correct, skipped), Header(stamp);
            && |h| <= |r| && r[..|h|] == h
            && (r == h <==> |renamed| == 0 && |correct| == 0 && |skipped| == 0)
            && |Concat(skipped)| <= |r| && r[|r| - |Concat(skipped)|..] == Concat(skipped)
  {
    SectionsEmpty(renamed, correct, skipped);
    SectionsEndWithSkipped(renamed, correct, skipped);
    HeaderThen(Header(stamp), Sections(renamed, correct, skipped), Concat(skipped),
               |renamed| == 0 && |correct| == 0 && |skipped| == 0);
  }

  /**
   A header followed by a body starts with the header, is the header alone
   exactly when the body is empty, and ends as the body ends.
   */
  lemma HeaderThen(h: string, body: string, tail: string, empty: bool)
    requires body == "" <==> empty
    requires |tail| <= |body| && body[|body| - |tail|..] == tail
    ensures var r := h + body;
            && |h| <= |r| && r[..|h|] == h
            && (r == h <==> empty)
            && |tail| <= |r| && r[|r| - |tail|..] == tail
  {
    PrefixOfAppend(h, body);
    TailOfSplit(h + body, h, body, tail);
  }

  lemma SectionsEmpty(renamed: seq<string>, correct: seq<string>, skipped: seq<string>)
    ensures Sections(renamed, correct, skipped) == "" <==> |renamed| == 0 && |correct| == 0 && |skipped| == 0
  {
    var a, b, c := RenamedSection(renamed), CorrectSection(correct), SkippedSection(skipped);
    assert |Sections(renamed, correct, skipped)| == |a| + |b| + |c|;
  }

  lemma SectionsEndWithSkipped(renamed: seq<string>, correct: seq<string>, skipped: seq<string>)
    ensures var s := Sections(renamed, correct, skipped);
            |Concat(skipped)| <= |s| && s[|s| - |Concat(skipped)|..] == Concat(skipped)
  {
    SkippedSectionEnds(skipped);
    TailOfSplit(Sections(renamed, correct, skipped), RenamedSection(renamed) + CorrectSection(correct),
                SkippedSection(skipped), Concat(skipped));
  }

  /** The skipped section ends with its entries. */
  lemma SkippedSectionEnds(skipped: seq<string>)
    ensures |Concat(skipped)| <= |SkippedSection(skipped)|
    ensures SkippedSection(skipped)[|SkippedSection(skipped)| - |Concat(skipped)|..] == Concat(skipped)
  {
    SectionEndsWithEntries("\n", "# SKIPPED OR ERRORED FILES", skipped);
  }

  lemma PrefixOfAppend(x: string, y: string)
    ensures |x| <= |x + y| && (x + y)[..|x|] == x
    ensures x + y == x <==> y == ""
  {
    assert (x + y)[..|x|] == x;
    if y == "" {
      assert x + y == x;
    }
  }

  lemma SectionEndsWithEntries(lead: string, title: string, entries: seq<string>)
    ensures var s := Section(lead, title, entries);
            |Concat(entries)| <= |s| && s[|s| - |Concat(entries)|..] == Concat(entries)
  {
    if |entries| == 0 {
      assert Concat(entries) == "";
    }
  }

  /** A string split as a + s ends with whatever s ends with. */
  lemma TailOfSplit(whole: string, a: string, s: string, b: string)
    requires whole == a + s
    requires |b| <= |s| && s[|s| - |b|..] == b
    ensures |b| <= |whole| && whole[|whole| - |b|..] == b
  {
    assert whole[|whole| - |b|..] == s[|s| - |b|..];
  }
}

=== FILE: naming.dfy ===
/**
 File names: `Path.suffix`, the media-extension filter, the canonical name
 `<date>_<HHMMSS><suffix>` and the search for a free name in a directory
 (`<base><ext>`, then `<base>-1<ext>`, `<base>-2<ext>`, ...).
 */
module Naming {
  import opened Numerals

  /** A path as its parent directory and its final component. */
  datatype Path = Path(dir: string, name: string)

  /** `str(path)`. */
  function PathText(p: Path): string {
    if p.dir == "/" then "/" + p.name else p.dir + "/" + p.name
  }

  /** `s.rfind('.')`: the index of the last dot, or -1. */
  function LastDot(s: string): (i: int)
    ensures -1 <= i < |s|
    ensures i >= 0 ==> s[i] == '.'
    ensures forall j :: i < j < |s| ==> s[j] != '.'
  {
    if |s| == 0 then -1
    else if s[|s| - 1] == '.' then |s| - 1
    else LastDot(s[..|s| - 1])
  }

  /** `Path.suffix`: from the last dot on, unless that dot leads or ends the name. */
  function Suffix(name: string): (r: string)
    ensures r == "" || (2 <= |r| < |name| && r[0] == '.' && r == name[|name| - |r|..])
    ensures r != "" ==> forall j :: |name| - |r| < j < |name| ==> name[j] != '.'
    ensures r == "" <==> forall i :: 0 <= i < |name| && name[i] == '.' && (forall j :: i < j < |name| ==> name[j] != '.')
                                   ==> i == 0 || i == |name| - 1
  {
    var i := LastDot(name);
    if 0 < i < |name| - 1 then name[i..] else ""
  }

  /** A suffix as `Path.suffix` reports it: a dot, then at least one character, no further dot. */
  predicate IsSuffixShaped(ext: string) {
    2 <= |ext| && ext[0] == '.' && forall j :: 0 < j < |ext| ==> ext[j] != '.'
  }

  /** A new name keeps the suffix it was built with. */
  lemma SuffixOfAppended(base: string, ext: string)
    requires 1 <= |base| && IsSuffixShaped(ext)
    ensures Suffix(base + ext) == ext
  {
    var s := base + ext;
    assert s[|base|] == '.';
    assert forall j :: |base| < j < |s| ==> s[j] == ext[j - |base|];
    assert s[|base|..] == ext;
  }

  function LowerChar(c: char): char {
    if 'A' <= c <= 'Z' then (c as int + 32) as char else c
  }

  /**
   `str.lower()` on ASCII letters: no capital is left, every other character
   is kept, and each capital becomes the small letter at the same place in
   the alphabet.
   */
  function Lower(s: string): (r: string)
    ensures |r| == |s|
    ensures forall i :: 0 <= i < |r| ==> !('A' <= r[i] <= 'Z')
    ensures forall i :: 0 <= i < |s| && !('A' <= s[i] <= 'Z') ==> r[i] == s[i]
    ensures forall i :: 0 <= i < |s| && 'A' <= s[i] <= 'Z' ==> 'a' <= r[i] <= 'z' && r[i] as int - 'a' as int == s[i] as int - 'A' as int
  {
    seq(|s|, i requires 0 <= i < |s| => LowerChar(s[i]))
  }

  const ImageExtensions: set<string> :=
    {".jpg", ".jpeg", ".png", ".gif", ".bmp", ".tiff", ".webp", ".heic", ".heif"}
  const VideoExtensions: set<string> :=
    {".mp4", ".mov", ".avi", ".mkv", ".wmv", ".flv", ".webm", ".mpeg", ".mpg"}
  const AudioExtensions: set<string> :=
    {".mp3", ".wav", ".aac", ".flac", ".ogg", ".m4a", ".wma"}
  const MediaExtensions: set<string> := ImageExtensions + VideoExtensions + AudioExtensions

  /** `f.suffix.lower() in MEDIA_EXTENSIONS`. */
  predicate IsMediaName(name: string) {
    Lower(Suffix(name)) in MediaExtensions
  }

  /** A media file always has a non-empty suffix. */
  lemma MediaNameHasSuffix(name: string)
    requires IsMediaName(name)
    ensures IsSuffixShaped(Suffix(name))
  {
    assert "" !in MediaExtensions;
  }

  /** Lowering twice is lowering once. */
  lemma LowerIdempotent(s: string)
    ensures Lower(Lower(s)) == Lower(s)
  {
  }

  /** Lowering keeps the dots where they are, so a suffix stays suffix-shaped. */
  lemma LowerKeepsSuffixShape(ext: string)
    requires IsSuffixShaped(ext)
    ensures IsSuffixShaped(Lower(ext))
  {
  }

  /**
   The media filter ignores the case of the extension: a name with a
   suffix is a media name exactly when its lowered suffix is a media
   extension, and the same name with its suffix lowered is judged alike.
   */
  lemma MediaFilterIgnoresCase(base: string, ext: string)
    requires 1 <= |base| && IsSuffixShaped(ext)
    ensures IsMediaName(base + ext) <==> Lower(ext) in MediaExtensions
    ensures IsMediaName(base + ext) <==> IsMediaName(base + Lower(ext))
  {
    SuffixOfAppended(base, ext);
    LowerKeepsSuffixShape(ext);
    SuffixOfAppended(base, Lower(ext));
    LowerIdempotent(ext);
  }

  /** An instance: a camera's upper-case `.JPG` passes the filter. */
  lemma UpperCaseExtensionExample()
    ensures IsMediaName("IMG_0001" + ".JPG")
  {
    UpperCaseJpg();
    MediaFilterIgnoresCase("IMG_0001", ".JPG");
  }

  lemma UpperCaseJpg()
    ensures IsSuffixShaped(".JPG") && Lower(".JPG") in MediaExtensions
  {
    assert Lower(".JPG") == ".jpg";
    assert ".jpg" in ImageExtensions;
  }

  /** The k-th name tried: `<base><ext>` first, then `<base>-<k><ext>`. */
  function Candidate(base: string, ext: string, k: nat): (r: string)
    ensures |base + ext| <= |r|
    ensures r[..|base|] == base && r[|r| - |ext|..] == ext
  {
    if k == 0 then base + ext else base + "-" + Decimal(k) + ext
  }

  /** Different attempts name different files, so the search can run out of taken names. */
  lemma CandidateInjective(base: string, ext: string, j: nat, k: nat)
    requires Candidate(base, ext, j) == Candidate(base, ext, k)
    ensures j == k
  {
    if j != 0 && k != 0 {
      var cj, ck := Candidate(base, ext, j), Candidate(base, ext, k);
      assert cj[|base| + 1..|cj| - |ext|] == Decimal(j);
      assert ck[|base| + 1..|ck| - |ext|] == Decimal(k);
      DecimalInjective(j, k);
    }
  }

  /** Attempt k is the first whose name is free in the directory. */
  ghost predicate IsFirstFree(st: set<Path>, dir: string, base: string, ext: string, k: nat) {
    && Path(dir, Candidate(base, ext, k)) !in st
    && forall j :: 0 <= j < k ==> Path(dir, Candidate(base, ext, j)) in st
  }

  /** The first free attempt is unique. */
  lemma FirstFreeUnique(st: set<Path>, dir: string, base: string, ext: string, j: nat, k: nat)
    requires IsFirstFree(st, dir, base, ext, j) && IsFirstFree(st, dir, base, ext, k)
    ensures j == k
  {
  }

  ghost function Tried(dir: string, base: string, ext: string, k: nat): set<Path> {
    set j | 0 <= j < k :: Path(dir, Candidate(base, ext, j))
  }

  /** Each taken attempt is a taken name not met before: the untried taken names shrink. */
  lemma TakenAttemptShrinksRest(st: set<Path>, dir: string, base: string, ext: string, k: nat)
    requires Path(dir, Candidate(base, ext, k)) in st
    ensures |st - Tried(dir, base, ext, k + 1)| < |st - Tried(dir, base, ext, k)|
  {
    var dest := Path(dir, Candidate(base, ext, k));
    var before := st - Tried(dir, base, ext, k);
    assert dest !in Tried(dir, base, ext, k) by {
      forall j | 0 <= j < k ensures Path(dir, Candidate(base, ext, j)) != dest {
        if Candidate(base, ext, j) == Candidate(base, ext, k) {
          CandidateInjective(base, ext, j, k);
        }
      }
    }
    assert Tried(dir, base, ext, k + 1) == Tried(dir, base, ext, k) + {dest};
    assert st - Tried(dir, base, ext, k + 1) == before - {dest};
    assert dest in before;
  }

  /**
   The collision loop: probe `<base><ext>`, then `<base>-1<ext>`, ... and
   stop at the first name that no entry of the directory holds. It ends
   because distinct attempts are distinct names and the directory is finite.
   */
  method FreeName(st: set<Path>, dir: string, base: string, ext: string) returns (dest: Path, k: nat)
    ensures IsFirstFree(st, dir, base, ext, k)
    ensures dest == Path(dir, Candidate(base, ext, k)) && dest !in st
  {
    k := 0;
    dest := Path(dir, Candidate(base, ext, 0));
    while dest in st
      invariant dest == Path(dir, Candidate(base, ext, k))
      invariant forall j :: 0 <= j < k ==> Path(dir, Candidate(base, ext, j)) in st
      decreases |st - Tried(dir, base, ext, k)|
    {
      TakenAttemptShrinksRest(st, dir, base, ext, k);
      k := k + 1;
      dest := Path(dir, Candidate(base, ext, k));
    }
  }
}

=== FILE: numerals.dfy ===
/**
 Decimal digits and numerals: the `int(...)` conversion of a matched digit
 group, `str(n)` and the zero-padded two-digit fields that `strftime` writes.
 Only the ASCII digits '0'..'9' are modelled.
 */
module Numerals {

  predicate IsDigit(c: char) {
    '0' <= c <= '9'
  }

  predicate AllDigits(s: string) {
    forall i :: 0 <= i < |s| ==> IsDigit(s[i])
  }

  function DigitValue(c: char): (v: nat)
    requires IsDigit(c)
    ensures v < 10
  {
    c as int - '0' as int
  }

  function DigitChar(n: nat): (c: char)
    requires n < 10
    ensures IsDigit(c) && DigitValue(c) == n
  {
    ('0' as int + n) as char
  }

  /** The value of a string of decimal digits, as `int(s)` computes it. */
  function ValueOf(s: string): nat
    requires AllDigits(s)
    decreases |s|
  {
    if |s| == 0 then 0 else ValueOf(s[..|s| - 1]) * 10 + DigitValue(s[|s| - 1])
  }

  /** `str(n)`: the shortest decimal numeral of n. */
  function Decimal(n: nat): (r: string)
    ensures 1 <= |r| && AllDigits(r)
    ensures |r| > 1 ==> r[0] != '0'
  {
    if n < 10 then [DigitChar(n)] else Decimal(n / 10) + [DigitChar(n % 10)]
  }

  /** A two-digit field padded with a leading zero (`%m`, `%d`, `%H`, `%M`, `%S`). */
  function Pad2(n: nat): (r: string)
    requires n < 100
    ensures |r| == 2 && AllDigits(r)
  {
    [DigitChar(n / 10), DigitChar(n % 10)]
  }

  /** Reading back what `str(n)` wrote gives n. */
  lemma {:induction false} DecimalRoundTrip(n: nat)
    ensures ValueOf(Decimal(n)) == n
  {
    if n >= 10 {
      DecimalRoundTrip(n / 10);
      var s := Decimal(n);
      assert s[..|s| - 1] == Decimal(n / 10);
    }
  }

  /** Distinct counters give distinct numerals. */
  lemma DecimalInjective(a: nat, b: nat)
    requires Decimal(a) == Decimal(b)
    ensures a == b
  {
    DecimalRoundTrip(a);
    DecimalRoundTrip(b);
  }

  /** The numeral of n has exactly four digits when n has four digits. */
  lemma DecimalOfFourDigits(n: nat)
    ensures 1000 <= n <= 9999 ==> |Decimal(n)| == 4
  {
    if 1000 <= n <= 9999 {
      assert Decimal(n / 1000) == [DigitChar(n / 1000)];
      assert |Decimal(n / 100)| == 2;
      assert |Decimal(n / 10)| == 3;
    }
  }

  /** A non-empty digit string whose first digit is not '0' has a positive value. */
  lemma {:induction false} ValueOfLeadingNonZero(s: string)
    requires 1 <= |s| && AllDigits(s) && s[0] != '0'
    ensures ValueOf(s) >= 1
  {
    if |s| > 1 {
      ValueOfLeadingNonZero(s[..|s| - 1]);
    }
  }

  /**
   Writing back the value of a numeral without a leading zero gives the
   numeral itself: `str(int(s)) == s`.
   */
  lemma {:induction false} DecimalOfValue(s: string)
    requires 1 <= |s| && AllDigits(s)
    requires |s| > 1 ==> s[0] != '0'
    ensures Decimal(ValueOf(s)) == s
  {
    var init := s[..|s| - 1];
    if |init| > 0 {
      ValueOfLeadingNonZero(init);
      DecimalOfValue(init);
      assert ValueOf(s) / 10 == ValueOf(init);
      assert ValueOf(s) % 10 == DigitValue(s[|s| - 1]);
      assert s == init + [s[|s| - 1]];
    }
  }

  lemma ValueOfSingle(s: string)
    requires |s| == 1 && AllDigits(s)
    ensures ValueOf(s) == DigitValue(s[0])
  {
    assert s[..0] == [];
  }

  /** Padding the value of a two-digit string gives the string back. */
  lemma Pad2OfValue(s: string)
    requires |s| == 2 && AllDigits(s)
    ensures ValueOf(s) == DigitValue(s[0]) * 10 + DigitValue(s[1])
    ensures Pad2(ValueOf(s)) == s
  {
    ValueOfSingle(s[..1]);
    assert ValueOf(s) == DigitValue(s[0]) * 10 + DigitValue(s[1]);
  }

  /** Reading a padded field gives its value back. */
  lemma ValueOfPad2(n: nat)
    requires n < 100
    ensures ValueOf(Pad2(n)) == n
  {
    var s := Pad2(n);
    ValueOfSingle(s[..1]);
    assert ValueOf(s) == DigitValue(s[0]) * 10 + DigitValue(s[1]);
  }
}

=== FILE: organizer.dfy ===
/**
 The per-file pipeline of `organize_media_files` and the loop around it.

 The directory tree is a set of paths; a real rename takes out the source
 and puts in the destination, so later files see it. A dry run leaves the
 set alone. Whether a real rename raises, and with which message, is an
 oracle: a map from source path to the exception text.
 */
module Organizer {
  import opened Wrappers
  import opened Numerals
  import opened Calendar
  import opened FilenameDate
  import opened DateResolution
  import opened Naming
  import opened LogText

  /** A scanned file with its modification time; None when it cannot be read or converted. */
  datatype FileEntry = FileEntry(path: Path, mtime: Option<DateTime>)

  predicate IsValidEntry(f: FileEntry) {
    f.mtime.Some? ==> IsValidDateTime(f.mtime.value)
  }

  predicate AllValid(files: seq<FileEntry>) {
    forall i :: 0 <= i < |files| ==> IsValidEntry(files[i])
  }

  /** Scanned files are distinct paths of the tree. */
  predicate DistinctPresent(st: set<Path>, files: seq<FileEntry>) {
    && (forall i :: 0 <= i < |files| ==> files[i].path in st)
    && (forall i, j :: 0 <= i < j < |files| ==> files[i].path != files[j].path)
  }

  /** The scanner's extension filter over the files `rglob` lists. */
  function MediaFiles(files: seq<FileEntry>): (r: seq<FileEntry>)
    ensures |r| <= |files|
    ensures forall f :: f in r <==> f in files && IsMediaName(f.path.name)
  {
    if |files| == 0 then []
    else
      var init, last := files[..|files| - 1], files[|files| - 1];
      var rest := MediaFiles(init);
      FilterStep(files, rest, (f: FileEntry) => IsMediaName(f.path.name));
      if IsMediaName(last.path.name) then rest + [last] else rest
  }

  /** Filtering one more element: the last one joins the kept ones exactly when it passes. */
  lemma FilterStep(files: seq<FileEntry>, rest: seq<FileEntry>, keep: FileEntry -> bool)
    requires |files| > 0
    requires forall f :: f in rest <==> f in files[..|files| - 1] && keep(f)
    ensures var last := files[|files| - 1];
            forall f :: f in (if keep(last) then rest + [last] else rest) <==> f in files && keep(f)
  {
    assert files == files[..|files| - 1] + [files[|files| - 1]];
  }

  /** The filter keeps the scan order: filtering a concatenation filters each part. */
  lemma {:induction false} MediaFilesOfAppend(a: seq<FileEntry>, b: seq<FileEntry>)
    ensures MediaFiles(a + b) == MediaFiles(a) + MediaFiles(b)
    decreases |b|
  {
    if |b| > 0 {
      var b' := b[..|b| - 1];
      assert (a + b)[..|a + b| - 1] == a + b';
      MediaFilesOfAppend(a, b');
    } else {
      assert a + b == a;
    }
  }

  /** What the date and the modification time make of one file. */
  datatype Plan =
    | NoDate                               // neither the name nor a plausible mtime gives a date
    | Unconvertible                        // a date, but the mtime for the time part raises
    | Target(base: string, ext: string)    // the new name is base + ext

  function PlanFor(f: FileEntry, currentYear: int): (p: Plan)
    requires IsValidEntry(f)
    ensures p.NoDate? <==> ResolveDate(f.path.name, f.mtime, currentYear).None?
    ensures p.Unconvertible? ==> f.mtime.None? && DateFromFilename(f.path.name).Some?
    ensures p.Target? ==> f.mtime.Some? && p.ext == Suffix(f.path.name)
  {
    match ResolveDate(f.path.name, f.mtime, currentYear)
    case None => NoDate
    case Some(date) =>
      if f.mtime.None? then Unconvertible
      else Target(date + TimeSuffix(f.mtime.value), Suffix(f.path.name))
  }

  /**
   A new base name is a real date in `YYYY-MM-DD` form, an underscore and
   six digits of time: `<date>_<HHMMSS>`.
   */
  lemma TargetShape(f: FileEntry, currentYear: int)
    requires IsValidEntry(f) && PlanFor(f, currentYear).Target?
    ensures var base := PlanFor(f, currentYear).base;
            && |base| == 17 && base[10] == '_' && AllDigits(base[11..])
            && (exists d :: ParseDateText(base[..10]) == Some(d) && IsValidDate(d))
            && base[11..] == TimeSuffix(f.mtime.value)[1..]
  {
    ResolveDateSpec(f.path.name, f.mtime, currentYear);
    var date := ResolveDate(f.path.name, f.mtime, currentYear).value;
    var d :| IsValidDate(d) && date == DateText(d) && FirstPlausibleYear <= d.year;
    DateTextRoundTrip(d);
    var base := PlanFor(f, currentYear).base;
    assert base == date + TimeSuffix(f.mtime.value);
    assert base[..10] == date && base[10..] == TimeSuffix(f.mtime.value);
    assert base[11..] == TimeSuffix(f.mtime.value)[1..];
  }

  /** A file with a resolved date and a readable time gets the plan of those two parts. */
  lemma PlanParts(f: FileEntry, currentYear: int)
    requires IsValidEntry(f)
    ensures var r := ResolveDate(f.path.name, f.mtime, currentYear);
      r.Some? && f.mtime.Some? ==>
        PlanFor(f, currentYear) == Target(r.value + TimeSuffix(f.mtime.value), Suffix(f.path.name))
    ensures PlanFor(f, currentYear).Target? ==>
      ResolveDate(f.path.name, f.mtime, currentYear).Some? && f.mtime.Some?
  {
  }

  /** The fate of one processed file. */
  datatype Outcome =
    | Renamed(src: Path, dest: Path)
    | AlreadyCorrect(src: Path)
    | Undated(src: Path)
    | RenameFailed(src: Path, dest: Path, message: string)

  /**
   The rules for one file, given the tree as it is when the file comes up:
   no date means skipped; a canonical name equal to the current one means
   already correct and no rename; otherwise the destination is the first
   free attempt in the file's directory, and the rename either happens or
   (real mode only) fails with the oracle's message.
   */
  ghost predicate StepSpec(st: set<Path>, f: FileEntry, o: Outcome, dryRun: bool,
                           failing: map<Path, string>, currentYear: int)
    requires IsValidEntry(f)
  {
    match PlanFor(f, currentYear)
    case NoDate => o == Undated(f.path)
    case Unconvertible => false
    case Target(base, ext) =>
      if base + ext == f.path.name then o == AlreadyCorrect(f.path)
      else
        && (o.Renamed? || o.RenameFailed?)
        && o.src == f.path && o.dest.dir == f.path.dir
        && (exists k :: IsFirstFree(st, f.path.dir, base, ext, k) && o.dest.name == Candidate(base, ext, k))
        && (o.RenameFailed? <==> !dryRun && f.path in failing)
        && (o.RenameFailed? ==> o.message == failing[f.path])
  }

  /** A file whose current name is its target name is reported as already correct. */
  lemma CorrectStep(st: set<Path>, f: FileEntry, o: Outcome, dryRun: bool,
                    failing: map<Path, string>, currentYear: int)
    requires IsValidEntry(f) && StepSpec(st, f, o, dryRun, failing, currentYear)
    requires PlanFor(f, currentYear).Target?
    requires PlanFor(f, currentYear).base + PlanFor(f, currentYear).ext == f.path.name
    ensures o == AlreadyCorrect(f.path)
  {
  }

  /** Any other file with a target goes to the first free numbered name. */
  lemma MoveStep(st: set<Path>, f: FileEntry, o: Outcome, dryRun: bool,
                 failing: map<Path, string>, currentYear: int, base: string, ext: string)
    requires IsValidEntry(f) && StepSpec(st, f, o, dryRun, failing, currentYear)
    requires PlanFor(f, currentYear) == Target(base, ext) && base + ext != f.path.name
    ensures o.Renamed? || o.RenameFailed?
    ensures exists k :: IsFirstFree(st, f.path.dir, base, ext, k) && o.dest == Path(f.path.dir, Candidate(base, ext, k))
  {
    var k :| IsFirstFree(st, f.path.dir, base, ext, k) && o.dest.name == Candidate(base, ext, k);
    assert o.dest == Path(f.path.dir, Candidate(base, ext, k));
  }

  /** The tree after one outcome. */
  function After(st: set<Path>, o: Outcome, dryRun: bool): set<Path> {
    if o.Renamed? && !dryRun then (st - {o.src}) + {o.dest} else st
  }

  /** The tree after a sequence of outcomes. */
  function Replay(st0: set<Path>, outs: seq<Outcome>, dryRun: bool): set<Path>
    decreases |outs|
  {
    if |outs| == 0 then st0
    else After(Replay(st0, outs[..|outs| - 1], dryRun), outs[|outs| - 1], dryRun)
  }

  /** Each outcome follows the rules for its file in the tree its predecessors left. */
  ghost predicate ValidRun(st0: set<Path>, files: seq<FileEntry>, outs: seq<Outcome>, dryRun: bool,
                           failing: map<Path, string>, currentYear: int)
    requires AllValid(files)
    decreases |outs|
  {
    && |outs| <= |files|
    && (|outs| > 0 ==>
          var n := |outs| - 1;
          && ValidRun(st0, files, outs[..n], dryRun, failing, currentYear)
          && StepSpec(Replay(st0, outs[..n], dryRun), files[n], outs[n], dryRun, failing, currentYear))
  }

  function RenamedLine(src: Path, dest: Path): string {
    PathText(src) + " -> " + PathText(dest) + "\n"
  }

  function CorrectLine(src: Path): string {
    PathText(src) + " -> [NAME ALREADY CORRECT]\n"
  }

  function UndatedLine(src: Path): string {
    PathText(src) + " -> [INVALID OR UNREADABLE DATE]\n"
  }

  function ErrorLine(src: Path, message: string): string {
    PathText(src) + " -> [ERROR RENAMING: " + message + "]\n"
  }

  /** The log lines one outcome leaves in each of the three logs. */
  function RenamedPart(o: Outcome): seq<string> {
    if o.Renamed? then [RenamedLine(o.src, o.dest)] else []
  }

  function CorrectPart(o: Outcome): seq<string> {
    if o.AlreadyCorrect? then [CorrectLine(o.src)] else []
  }

  function SkippedPart(o: Outcome): seq<string> {
    match o
    case Undated(src) => [UndatedLine(src)]
    case RenameFailed(src, _, message) => [ErrorLine(src, message)]
    case _ => []
  }

  /** The three logs and the counters of one run. */
  datatype Report = Report(
    total: nat,
    renamedLog: seq<string>, correctLog: seq<string>, skippedLog: seq<string>,
    renamed: nat, correct: nat, skipped: nat, errors: nat)

  /** The net effect of one outcome on the logs and counters. */
  function Record(r: Report, o: Outcome): Report {
    r.(renamedLog := r.renamedLog + RenamedPart(o),
       correctLog := r.correctLog + CorrectPart(o),
       skippedLog := r.skippedLog + SkippedPart(o),
       renamed := r.renamed + |RenamedPart(o)|,
       correct := r.correct + |CorrectPart(o)|,
       skipped := r.skipped + |SkippedPart(o)|,
       errors := r.errors + (if o.RenameFailed? then 1 else 0))
  }

  /** The report after a sequence of outcomes, starting from empty logs and zero counters. */
  function Summary(total: nat, outs: seq<Outcome>): Report
    decreases |outs|
  {
    if |outs| == 0 then Report(total, [], [], [], 0, 0, 0, 0)
    else Record(Summary(total, outs[..|outs| - 1]), outs[|outs| - 1])
  }

  /**
   Every outcome lands in exactly one log, each counter equals the length of
   its log, and each error is also a skip.
   */
  lemma {:induction false} SummaryCounts(total: nat, outs: seq<Outcome>)
    ensures var r := Summary(total, outs);
      && r.total == total
      && r.renamed == |r.renamedLog| && r.correct == |r.correctLog| && r.skipped == |r.skippedLog|
      && r.renamed + r.correct + r.skipped == |outs|
      && r.errors <= r.skipped
    decreases |outs|
  {
    if |outs| > 0 {
      SummaryCounts(total, outs[..|outs| - 1]);
    }
  }

  /**
   The log shows the report's counters: a section appears exactly when its
   counter is positive, and the number in its heading reads back as that
   counter.
   */
  lemma LogHeadingsShowCounters(total: nat, outs: seq<Outcome>)
    ensures var r := Summary(total, outs);
      && (RenamedSection(r.renamedLog) == "" <==> r.renamed == 0)
      && (CorrectSection(r.correctLog) == "" <==> r.correct == 0)
      && (SkippedSection(r.skippedLog) == "" <==> r.skipped == 0)
      && (r.renamed > 0 ==> HeadingShows(RenamedSection(r.renamedLog), "", "# RENAMED FILES", r.renamed))
      && (r.correct > 0 ==> HeadingShows(CorrectSection(r.correctLog), "\n", "# FILES ALREADY NAMED CORRECTLY", r.correct))
      && (r.skipped > 0 ==> HeadingShows(SkippedSection(r.skippedLog), "\n", "# SKIPPED OR ERRORED FILES", r.skipped))
  {
    var r := Summary(total, outs);
    SummaryCounts(total, outs);
    SectionShowsCount("", "# RENAMED FILES", r.renamedLog, r.renamed);
    SectionShowsCount("\n", "# FILES ALREADY NAMED CORRECTLY", r.correctLog, r.correct);
    SectionShowsCount("\n", "# SKIPPED OR ERRORED FILES", r.skippedLog, r.skipped);
  }

  /**
   The body of the loop for one file whose plan does not raise: classify,
   search a free name, log the rename tentatively, and on failure move the
   entry from the renamed log to the skipped log.
   */
  method ProcessFile(st: set<Path>, f: FileEntry, report: Report, dryRun: bool,
                     failing: map<Path, string>, currentYear: int)
    returns (st': set<Path>, report': Report, o: Outcome)
    requires IsValidEntry(f) && !PlanFor(f, currentYear).Unconvertible?
    ensures StepSpec(st, f, o, dryRun, failing, currentYear)
    ensures st' == After(st, o, dryRun)
    ensures report' == Record(report, o)
  {
    st' := st;
    var plan := PlanFor(f, currentYear);
    if plan.NoDate? {
      o := Undated(f.path);
      report' := Record(report, o);
      KeepStepSpec(st, f, o, dryRun, failing, currentYear);
    } else if plan.base + plan.ext == f.path.name {
      o := AlreadyCorrect(f.path);
      report' := Record(report, o);
      KeepStepSpec(st, f, o, dryRun, failing, currentYear);
    } else {
      var k;
      st', report', o, k := RenameFile(st, f.path, plan.base, plan.ext, report, dryRun, failing);
      RenameStepSpec(st, f, plan.base, plan.ext, k, o, dryRun, failing, currentYear);
    }
  }

  /**
   The rename branch of the loop body: find a free name, log the rename
   tentatively, and when the rename raises move the entry from the renamed
   log to the skipped log.
   */
  method RenameFile(st: set<Path>, src: Path, base: string, ext: string, report: Report, dryRun: bool,
                    failing: map<Path, string>)
    returns (st': set<Path>, report': Report, o: Outcome, k: nat)
    ensures o.Renamed? || o.RenameFailed?
    ensures o.src == src && o.dest == Path(src.dir, Candidate(base, ext, k))
    ensures IsFirstFree(st, src.dir, base, ext, k)
    ensures o.RenameFailed? <==> !dryRun && src in failing
    ensures o.RenameFailed? ==> o.message == failing[src]
    ensures st' == After(st, o, dryRun)
    ensures report' == Record(report, o)
  {
    st' := st;
    var dest;
    dest, k := FreeName(st, src.dir, base, ext);
    report' := report.(renamedLog := report.renamedLog + [RenamedLine(src, dest)], renamed := report.renamed + 1);
    o := Renamed(src, dest);
    if !dryRun {
      if src in failing {
        var message := failing[src];
        assert report'.renamedLog[..|report'.renamedLog| - 1] == report.renamedLog;
        report' := report'.(
          errors := report'.errors + 1,
          skippedLog := report'.skippedLog + [ErrorLine(src, message)],
          renamed := report'.renamed - 1,
          skipped := report'.skipped + 1,
          renamedLog := report'.renamedLog[..|report'.renamedLog| - 1]);
        o := RenameFailed(src, dest, message);
      } else {
        st' := (st - {src}) + {dest};
      }
    }
  }

  lemma KeepStepSpec(st: set<Path>, f: FileEntry, o: Outcome, dryRun: bool,
                     failing: map<Path, string>, currentYear: int)
    requires IsValidEntry(f)
    requires PlanFor(f, currentYear).NoDate? ==> o == Undated(f.path)
    requires PlanFor(f, currentYear).Target? ==>
      PlanFor(f, currentYear).base + PlanFor(f, currentYear).ext == f.path.name && o == AlreadyCorrect(f.path)
    requires !PlanFor(f, currentYear).Unconvertible?
    ensures StepSpec(st, f, o, dryRun, failing, currentYear)
  {
  }

  lemma RenameStepSpec(st: set<Path>, f: FileEntry, base: string, ext: string, k: nat, o: Outcome, dryRun: bool,
                       failing: map<Path, string>, currentYear: int)
    requires IsValidEntry(f) && PlanFor(f, currentYear) == Target(base, ext) && base + ext != f.path.name
    requires IsFirstFree(st, f.path.dir, base, ext, k)
    requires o.Renamed? || o.RenameFailed?
    requires o.src == f.path && o.dest == Path(f.path.dir, Candidate(base, ext, k))
    requires o.RenameFailed? <==> !dryRun && f.path in failing
    requires o.RenameFailed? ==> o.message == failing[f.path]
    ensures StepSpec(st, f, o, dryRun, failing, currentYear)
  {
  }

  /**
   The loop over the precomputed file list. It stops early, as the source
   does by raising, when a file has a date but no readable time.
   */
  method Organize(st0: set<Path>, files: seq<FileEntry>, dryRun: bool,
                  failing: map<Path, string>, currentYear: int)
    returns (st: set<Path>, report: Report, outcomes: seq<Outcome>, aborted: bool)
    requires AllValid(files) && DistinctPresent(st0, files)
    ensures |outcomes| <= |files|
    ensures !aborted ==> |outcomes| == |files|
    ensures aborted ==> |outcomes| < |files| && PlanFor(files[|outcomes|], currentYear).Unconvertible?
    ensures ValidRun(st0, files, outcomes, dryRun, failing, currentYear)
    ensures st == Replay(st0, outcomes, dryRun)
    ensures dryRun ==> st == st0
    ensures |st| == |st0|
    ensures report == Summary(|files|, outcomes) && report.total == |files|
    ensures report.renamed + report.correct + report.skipped == |outcomes|
    ensures report.renamed == |report.renamedLog| && report.correct == |report.correctLog|
    ensures report.skipped == |report.skippedLog| && report.errors <= report.skipped
  {
    st := st0;
    report := Report(|files|, [], [], [], 0, 0, 0, 0);
    outcomes := [];
    aborted := false;
    var i := 0;
    while i < |files|
      invariant 0 <= i <= |files| && |outcomes| == i
      invariant ValidRun(st0, files, outcomes, dryRun, failing, currentYear)
      invariant st == Replay(st0, outcomes, dryRun)
      invariant report == Summary(|files|, outcomes)
    {
      var f := files[i];
      if PlanFor(f, currentYear).Unconvertible? {
        aborted := true;
        break;
      }
      var o;
      st, report, o := ProcessFile(st, f, report, dryRun, failing, currentYear);
      AppendOutcome(st0, files, outcomes, o, dryRun, failing, currentYear);
      outcomes := outcomes + [o];
      i := i + 1;
    }
    RunKeepsTreeSize(st0, files, outcomes, dryRun, failing, currentYear);
    if dryRun {
      DryRunKeepsTree(st0, outcomes);
    }
    SummaryCounts(|files|, outcomes);
  }

  /** What appending one more outcome does to the run. */
  lemma AppendOutcome(st0: set<Path>, files: seq<FileEntry>, outs: seq<Outcome>, o: Outcome, dryRun: bool,
                      failing: map<Path, string>, currentYear: int)
    requires AllValid(files) && |outs| < |files|
    requires ValidRun(st0, files, outs, dryRun, failing, currentYear)
    requires StepSpec(Replay(st0, outs, dryRun), files[|outs|], o, dryRun, failing, currentYear)
    ensures ValidRun(st0, files, outs + [o], dryRun, failing, currentYear)
    ensures Replay(st0, outs + [o], dryRun) == After(Replay(st0, outs, dryRun), o, dryRun)
    ensures forall total: nat :: Summary(total, outs + [o]) == Record(Summary(total, outs), o)
  {
    LastOfAppend(outs, o);
    SummaryOfAppend(outs, o);
  }

  lemma LastOfAppend(outs: seq<Outcome>, o: Outcome)
    ensures (outs + [o])[..|outs|] == outs && (outs + [o])[|outs|] == o && |outs + [o]| == |outs| + 1
  {
  }

  lemma SummaryOfAppend(outs: seq<Outcome>, o: Outcome)
    ensures forall total: nat :: Summary(total, outs + [o]) == Record(Summary(total, outs), o)
  {
    LastOfAppend(outs, o);
  }

  /** A dry run leaves the tree exactly as it was. */
  lemma {:induction false} DryRunKeepsTree(st0: set<Path>, outs: seq<Outcome>)
    ensures Replay(st0, outs, true) == st0
    decreases |outs|
  {
    if |outs| > 0 {
      DryRunKeepsTree(st0, outs[..|outs| - 1]);
    }
  }

  /** The outcome of a valid run at position k follows the rules for the k-th file. */
  lemma {:induction false} StepAt(st0: set<Path>, files: seq<FileEntry>, outs: seq<Outcome>, dryRun: bool,
                                  failing: map<Path, string>, currentYear: int, k: nat)
    requires AllValid(files) && ValidRun(st0, files, outs, dryRun, failing, currentYear)
    requires k < |outs|
    ensures ValidRun(st0, files, outs[..k], dryRun, failing, currentYear)
    ensures StepSpec(Replay(st0, outs[..k], dryRun), files[k], outs[k], dryRun, failing, currentYear)
    ensures outs[k].src == files[k].path
    decreases |outs|
  {
    var n := |outs| - 1;
    if k < n {
      StepAt(st0, files, outs[..n], dryRun, failing, currentYear, k);
      assert outs[..n][..k] == outs[..k];
    }
  }

  /**
   While a run goes on, the files still to come stay where they were, and
   no rename changes the number of entries: each takes out one file that
   exists and puts in one name that did not.
   */
  lemma {:induction false} RunKeepsTreeSize(st0: set<Path>, files: seq<FileEntry>, outs: seq<Outcome>, dryRun: bool,
                                            failing: map<Path, string>, currentYear: int)
    requires AllValid(files) && DistinctPresent(st0, files)
    requires ValidRun(st0, files, outs, dryRun, failing, currentYear)
    ensures |Replay(st0, outs, dryRun)| == |st0|
    ensures forall j :: |outs| <= j < |files| ==> files[j].path in Replay(st0, outs, dryRun)
    decreases |outs|
  {
    if |outs| > 0 {
      var n := |outs| - 1;
      RunKeepsTreeSize(st0, files, outs[..n], dryRun, failing, currentYear);
      var st := Replay(st0, outs[..n], dryRun);
      var o := outs[n];
      StepAt(st0, files, outs, dryRun, failing, currentYear, n);
      if o.Renamed? && !dryRun {
        assert o.dest !in st;
        assert o.src in st;
        assert |(st - {o.src}) + {o.dest}| == |st|;
      }
    }
  }

  /** A rename's destination was free in the tree the file saw. */
  lemma RenameTargetsFreePath(st: set<Path>, f: FileEntry, o: Outcome, dryRun: bool,
                              failing: map<Path, string>, currentYear: int)
    requires IsValidEntry(f) && StepSpec(st, f, o, dryRun, failing, currentYear)
    requires o.Renamed? || o.RenameFailed?
    ensures o.dest !in st
  {
    var plan := PlanFor(f, currentYear);
    var k :| IsFirstFree(st, f.path.dir, plan.base, plan.ext, k) && o.dest.name == Candidate(plan.base, plan.ext, k);
    assert o.dest == Path(f.path.dir, Candidate(plan.base, plan.ext, k));
  }

  /** Replaying one more outcome of a run. */
  lemma ReplayStep(st0: set<Path>, outs: seq<Outcome>, dryRun: bool, m: nat)
    requires 0 < m <= |outs|
    ensures Replay(st0, outs[..m], dryRun) == After(Replay(st0, outs[..m - 1], dryRun), outs[m - 1], dryRun)
  {
    assert outs[..m][..m - 1] == outs[..m - 1];
  }

  /** A rename's destination is none of the files that come after it. */
  lemma DestinationIsNoLaterSource(st0: set<Path>, files: seq<FileEntry>, outs: seq<Outcome>,
                                   failing: map<Path, string>, currentYear: int, a: nat, j: nat)
    requires AllValid(files) && DistinctPresent(st0, files)
    requires ValidRun(st0, files, outs, false, failing, currentYear)
    requires a < j < |files| && a < |outs| && outs[a].Renamed?
    ensures files[j].path != outs[a].dest
  {
    StepAt(st0, files, outs, false, failing, currentYear, a);
    var st := Replay(st0, outs[..a], false);
    RenameTargetsFreePath(st, files[a], outs[a], false, failing, currentYear);
    RunKeepsTreeSize(st0, files, outs[..a], false, failing, currentYear);
    assert files[j].path in st;
  }

  /**
   In a real run the destination of a rename stays occupied afterwards:
   every later rename starts from a file that was already in the tree
   when that destination was still free.
   */
  lemma {:induction false} DestinationPersists(st0: set<Path>, files: seq<FileEntry>, outs: seq<Outcome>,
                                               failing: map<Path, string>, currentYear: int, a: nat, m: nat)
    requires AllValid(files) && DistinctPresent(st0, files)
    requires ValidRun(st0, files, outs, false, failing, currentYear)
    requires a < m <= |outs| && outs[a].Renamed?
    ensures outs[a].dest in Replay(st0, outs[..m], false)
    decreases m
  {
    ReplayStep(st0, outs, false, m);
    if m == a + 1 {
      assert outs[..m][..a] == outs[..a];
    } else {
      DestinationPersists(st0, files, outs, failing, currentYear, a, m - 1);
      StepAt(st0, files, outs, false, failing, currentYear, m - 1);
      DestinationIsNoLaterSource(st0, files, outs, failing, currentYear, a, m - 1);
    }
  }

  /** In a real run no two renames go to the same path. */
  lemma RealRenamesHaveDistinctDestinations(st0: set<Path>, files: seq<FileEntry>, outs: seq<Outcome>,
                                            failing: map<Path, string>, currentYear: int, a: nat, b: nat)
    requires AllValid(files) && DistinctPresent(st0, files)
    requires ValidRun(st0, files, outs, false, failing, currentYear)
    requires a < b < |outs| && outs[a].Renamed? && outs[b].Renamed?
    ensures outs[a].dest != outs[b].dest
  {
    DestinationPersists(st0, files, outs, failing, currentYear, a, b);
    StepAt(st0, files, outs, false, failing, currentYear, b);
    RenameTargetsFreePath(Replay(st0, outs[..b], false), files[b], outs[b], false, failing, currentYear);
  }

  /**
   A dry run chooses every destination against the untouched tree, so two
   files of one directory that resolve to the same new name are both shown
   the same destination, although a real run would number the second one.
   */
  lemma DryRunPreviewsSameDestination(st0: set<Path>, files: seq<FileEntry>, outs: seq<Outcome>,
                                      failing: map<Path, string>, currentYear: int, a: nat, b: nat)
    requires AllValid(files) && ValidRun(st0, files, outs, true, failing, currentYear)
    requires a < b < |outs| && outs[a].Renamed? && outs[b].Renamed?
    requires files[a].path.dir == files[b].path.dir && PlanFor(files[a], currentYear) == PlanFor(files[b], currentYear)
    ensures outs[a].dest == outs[b].dest
  {
    StepAt(st0, files, outs, true, failing, currentYear, a);
    StepAt(st0, files, outs, true, failing, currentYear, b);
    DryRunKeepsTree(st0, outs[..a]);
    DryRunKeepsTree(st0, outs[..b]);
    var plan := PlanFor(files[a], currentYear);
    var dir := files[a].path.dir;
    var ka :| IsFirstFree(st0, dir, plan.base, plan.ext, ka) && outs[a].dest.name == Candidate(plan.base, plan.ext, ka);
    var kb :| IsFirstFree(st0, dir, plan.base, plan.ext, kb) && outs[b].dest.name == Candidate(plan.base, plan.ext, kb);
    FirstFreeUnique(st0, dir, plan.base, plan.ext, ka, kb);
  }

  /** The outcomes are a valid run over the files. */
  ghost predicate IsRunOf(st0: set<Path>, files: seq<FileEntry>, outs: seq<Outcome>, dryRun: bool,
                          failing: map<Path, string>, currentYear: int)
  {
    AllValid(files) && ValidRun(st0, files, outs, dryRun, failing, currentYear)
  }

  /** The result of one invocation. */
  datatype RunResult =
    | TargetMissing
    | NoMediaFiles
    | Crashed(state: set<Path>, processed: nat)
    | Finished(state: set<Path>, report: Report, log: string)

  /**
   `organize_media_files`: check the target, filter the scan, process every
   file, then render the log. The target check, the scan and the clocks are
   parameters.
   */
  method OrganizeMediaFiles(targetIsDir: bool, scanned: seq<FileEntry>, st0: set<Path>, dryRun: bool,
                            failing: map<Path, string>, currentYear: int, now: DateTime)
    returns (result: RunResult)
    requires AllValid(scanned) && DistinctPresent(st0, scanned) && IsValidDateTime(now)
    ensures result.TargetMissing? <==> !targetIsDir
    ensures result.NoMediaFiles? <==> targetIsDir && |MediaFiles(scanned)| == 0
    ensures result.Crashed? ==>
      && result.processed < |MediaFiles(scanned)| && AllValid(MediaFiles(scanned))
      && PlanFor(MediaFiles(scanned)[result.processed], currentYear).Unconvertible?
      && |result.state| == |st0| && (dryRun ==> result.state == st0)
      && exists outs :: IsRunOf(st0, MediaFiles(scanned), outs, dryRun, failing, currentYear)
                        && |outs| == result.processed && result.state == Replay(st0, outs, dryRun)
    ensures result.Finished? ==>
      && result.report.total == |MediaFiles(scanned)|
      && result.report.renamed + result.report.correct + result.report.skipped == result.report.total
      && result.report.renamed == |result.report.renamedLog| && result.report.correct == |result.report.correctLog|
      && result.report.skipped == |result.report.skippedLog| && result.report.errors <= result.report.skipped
      && |result.state| == |st0| && (dryRun ==> result.state == st0)
      && result.log == RenderLog(StampText(now), result.report.renamedLog, result.report.correctLog, result.report.skippedLog)
      && exists outs :: IsRunOf(st0, MediaFiles(scanned), outs, dryRun, failing, currentYear)
                        && |outs| == |MediaFiles(scanned)| && result.state == Replay(st0, outs, dryRun)
                        && result.report == Summary(|MediaFiles(scanned)|, outs)
  {
    if !targetIsDir {
      return TargetMissing;
    }
    var files := MediaFiles(scanned);
    if |files| == 0 {
      return NoMediaFiles;
    }
    assert AllValid(files) by {
      forall i | 0 <= i < |files| ensures IsValidEntry(files[i]) {
        assert files[i] in scanned;
      }
    }
    MediaFilesDistinct(st0, scanned);
    var st, report, outcomes, aborted := Organize(st0, files, dryRun, failing, currentYear);
    assert IsRunOf(st0, files, outcomes, dryRun, failing, currentYear);
    if aborted {
      return Crashed(st, |outcomes|);
    }
    var log := RenderLog(StampText(now), report.renamedLog, report.correctLog, report.skippedLog);
    return Finished(st, report, log);
  }

  /** Filtering a list of distinct scanned files keeps them distinct and present. */
  lemma {:induction false} MediaFilesDistinct(st: set<Path>, files: seq<FileEntry>)
    requires DistinctPresent(st, files)
    ensures DistinctPresent(st, MediaFiles(files))
    decreases |files|
  {
    if |files| > 0 {
      var init := files[..|files| - 1];
      assert DistinctPresent(st, init);
      MediaFilesDistinct(st, init);
      var last := files[|files| - 1];
      var rest := MediaFiles(init);
      forall i | 0 <= i < |rest| ensures rest[i].path != last.path {
        assert rest[i] in init;
      }
    }
  }
}

=== FILE: stability.dfy ===
/**
 What happens when the organizer meets its own output again.

 A file carrying the name the organizer gave it, with the same modification
 time, is left alone: its name parses back to the same date. A file that
 had to be numbered because its canonical name was taken is not: the next
 run sees the canonical name still taken, its own numbered name taken by
 itself, and moves it to a higher number.
 */
module Stability {
  import opened Wrappers
  import opened Calendar
  import opened FilenameDate
  import opened DateResolution
  import opened Naming
  import opened Organizer

  /**
   Renaming a media file to its canonical name and running again finds the
   name already correct, as long as the current year has not passed 2099
   (a later metadata year would not be found in the name again).
   */
  lemma CanonicalNameIsStable(f: FileEntry, currentYear: int, st: set<Path>, o: Outcome, dryRun: bool,
                              failing: map<Path, string>)
    requires IsValidEntry(f) && IsMediaName(f.path.name) && currentYear <= 2099
    requires PlanFor(f, currentYear).Target?
    requires var plan := PlanFor(f, currentYear);
      StepSpec(st, FileEntry(Path(f.path.dir, plan.base + plan.ext), f.mtime), o, dryRun, failing, currentYear)
    ensures var plan := PlanFor(f, currentYear);
      PlanFor(FileEntry(Path(f.path.dir, plan.base + plan.ext), f.mtime), currentYear) == plan
    ensures var plan := PlanFor(f, currentYear);
      o == AlreadyCorrect(Path(f.path.dir, plan.base + plan.ext))
  {
    var plan := PlanFor(f, currentYear);
    var base, ext := plan.base, plan.ext;
    var name := base + ext;
    var g := FileEntry(Path(f.path.dir, name), f.mtime);
    PlanParts(f, currentYear);
    ResolveDateSpec(f.path.name, f.mtime, currentYear);
    var date := ResolveDate(f.path.name, f.mtime, currentYear).value;
    var time := TimeSuffix(f.mtime.value);
    assert base == date + time;
    var d :| IsValidDate(d) && date == DateText(d) && FirstPlausibleYear <= d.year
             && (d.year <= 2099 || d.year <= currentYear);
    var tail := time + ext;
    Regroup(date, time, ext);
    RenderedDateParsesBack(d, tail);
    ResolveDateSpec(name, f.mtime, currentYear);
    assert ResolveDate(name, f.mtime, currentYear) == Some(date);
    MediaNameHasSuffix(f.path.name);
    SuffixOfAppended(base, ext);
    PlanParts(g, currentYear);
    CorrectStep(st, g, o, dryRun, failing, currentYear);
  }

  /**
   A file numbered `-1` because its canonical name was taken is renamed on
   the next run while that name is still taken: the search skips the
   canonical name and its own name and lands on a number of at least 2.
   */
  lemma NumberedNameIsRenumbered(f: FileEntry, currentYear: int, st: set<Path>, o: Outcome, dryRun: bool,
                                 failing: map<Path, string>)
    requires IsValidEntry(f) && PlanFor(f, currentYear).Target?
    requires var plan := PlanFor(f, currentYear);
      && f.path.name == Candidate(plan.base, plan.ext, 1)
      && f.path in st && Path(f.path.dir, plan.base + plan.ext) in st
    requires StepSpec(st, f, o, dryRun, failing, currentYear)
    ensures o.Renamed? || o.RenameFailed?
    ensures var plan := PlanFor(f, currentYear);
      exists k :: 2 <= k && o.dest == Path(f.path.dir, Candidate(plan.base, plan.ext, k))
  {
    var plan := PlanFor(f, currentYear);
    var base, ext, dir := plan.base, plan.ext, f.path.dir;
    assert Path(dir, Candidate(base, ext, 1)) == f.path;
    assert Path(dir, Candidate(base, ext, 0)) in st;
    MoveStep(st, f, o, dryRun, failing, currentYear, base, ext);
    var k :| IsFirstFree(st, dir, base, ext, k) && o.dest == Path(dir, Candidate(base, ext, k));
    assert k != 0 && k != 1;
  }

  lemma Regroup(a: string, b: string, c: string)
    ensures (a + b) + c == a + (b + c)
  {
  }
}

=== FILE: wrappers.dfy ===
/** Optional values: Python's `str | None` results. */
module Wrappers {

  datatype Option<+T> = None | Some(value: T)
}
